=== FILE: README.md ===
# QuestionGenPlat backend: question post-processing in Dafny

This project models the deterministic core of the QuestionGenPlat backend
(`backend/main.py`). The backend turns an uploaded document into a list of
multiple-choice questions and reports progress through a job record. The
model covers the steps between the language-model calls and the job record:

- **Chunking** (`_split_text`): split the text at every `'\n\n'` and pack
  consecutive paragraphs greedily into chunks.
  - A chunk's summed paragraph length is at most 2000; the `'\n\n'`
    separators are not counted.
  - A paragraph longer than 2000 forms a chunk of its own.
  - Also modelled: the choice of the sampled chunks, the batch size and the
    chunk each batch uses. A batch that keeps no question is retried on the
    same chunk; see "## Findings".
- **Validation** (`_generate_questions`): keep the parsed records that carry
  the four required keys and number them from a start id.
- **Duplicate filtering**: word-overlap similarity with threshold 0.85,
  checked against the question texts kept by earlier batches. The questions
  of the first request are not among them; see "## Findings".
- **Absorbing a batch**: the progress percentage, truncation to the requested
  count and the final exact-count check.
- **Answer alignment**: move the correct answer to the first option whose text
  the explanation mentions.
- **Answer redistribution**: when one letter holds more than 30% of the
  answers, swap option texts so the correct answers move to other letters.
- **Re-numbering** of the finished list, the optional Excel export, and storing the list in the job record.
- **The job record and the `GET /jobs/{job_id}` response** built from it.

Each module is one file.

| module | file | what it holds |
|---|---|---|
| `Common` | `common.dfy` | `Option`, `Result`, and the exceptions the code raises |
| `Strings` | `strings.dfy` | Python's `split('\n\n')`, `'\n\n'.join`, `str.split()`, `lower()` and `in` on strings |
| `Questions` | `questions.dfy` | the question record and its ordered option dictionary, with the swap of two option texts |
| `Chunking` | `chunking.dfy` | `_split_text`, chunk sampling, batch arithmetic |
| `Validation` | `validation.dfy` | the record filter of `_generate_questions` |
| `Dedup` | `dedup.dfy` | `calculate_similarity` and the duplicate filter |
| `Alignment` | `alignment.dfy` | answer alignment |
| `Redistribution` | `redistribution.dfy` | answer redistribution |
| `Finishing` | `finishing.dfy` | progress, truncation, exact count, re-numbering and the whole finishing pipeline |
| `Jobs` | `jobs.dfy` | job records and the status endpoint |

## How the modelled values relate to Python

- **Exceptions.** Everything after the job starts runs inside one
  `try`/`except Exception`, which marks the job as `"error"`. So a `KeyError`
  or `ValueError` the code can raise is modelled as a `Failure` value, never
  as a precondition. Examples:
  - an answer outside A-D in the tally;
  - swapping away from an answer that is not an option key;
  - a wrong final count;
  - a question without `"topic"`;
  - a missing topic or option A-D in an Excel export.
- **Options dictionary.** `q['options']` is a list of (key, text) pairs in
  insertion order. Alignment takes the first match in that order.
- **Float comparisons** are stated exactly over integers:
  - similarity `> 0.85` is `100 * overlap > 85 * larger`;
  - `max_count > len * 0.3` is `10 * max_count > 3 * len`.
- **Randomness is a parameter.**
  - `random.shuffle` of the weighted list becomes any `pool` with the same
    multiset.
  - The five `random.choice` results for question `i` become `draws[i]`.
- **Clock.** `time.time()` becomes the parameter `now`.

## Model

| member | source | states |
|---|---|---|
| Strings.JoinSplitParagraphs | backend/main.py:79 | splitting a text at `'\n\n'` and joining the parts with `'\n\n'` gives the text back |
| Strings.SplitParagraphsHaveNoBreak | backend/main.py:79 | no paragraph produced by the split contains `'\n\n'` |
| Strings.SplitParagraphsLeftmost | backend/main.py:79 | the split works from the left: the first part is a prefix of the text that ends at the first `'\n\n'`, is the whole text when there is none, and the remaining parts are the split of what follows that first break |
| Strings.JoinParagraphsAppend | backend/main.py:93 | joining two non-empty lists of paragraphs is joining each and putting one `'\n\n'` between them |
| Strings.WordLength | backend/main.py:275-276 | the first word ends at the first whitespace character or at the end of the string, and contains no whitespace |
| Strings.Words | backend/main.py:275-276 | `str.split()` yields only non-empty words free of whitespace |
| Strings.WordsOfWord | backend/main.py:275-276 | a text without whitespace splits into itself as the single word, or into no word when it is empty |
| Strings.WordsSplitAtSpace | backend/main.py:275-276 | for every text and every whitespace character in it, the words are those before the character followed by those after it; with the previous row this fixes the split of every string, leading, trailing and repeated whitespace included |
| Strings.WordsOfJoinWords | backend/main.py:275-276 | splitting words joined by single spaces gives back exactly those words |
| Strings.LowerIsLower | backend/main.py:281 | a lower-cased string has no capital letter, and lower-casing it again changes nothing |
| Questions.IndexOf | backend/main.py:434 | an option key that is present is found at its first position in the dictionary |
| Questions.LookupAt | backend/main.py:434-435 | with distinct keys, looking up the key at any position yields that position's text |
| Questions.SwapLookup | backend/main.py:434-436 | after the swap, the new key holds the old answer's text and the old key the other text; every other key is unchanged |
| Questions.SwapPermutesTexts | backend/main.py:434-436 | the swap keeps the keys distinct and only permutes the option texts |
| Questions.SwapTwice | backend/main.py:434-436 | swapping the same two keys twice restores the dictionary |
| Validation.ValidQuestions | backend/main.py:156-162 | at most as many questions as items come out, numbered consecutively from the start id |
| Validation.Complete | backend/main.py:157-159 | an item is kept exactly when it is an object carrying question, options, correct answer and explanation |
| Validation.ValidQuestionsIsFilterThenNumber | backend/main.py:156-162 | numbering while filtering equals filtering the complete items first and then numbering them in order |
| Validation.QuestionsFromReply | backend/main.py:150-175 | a failed call, an unparseable reply and a reply that is not a list all give no questions; a list gives its complete items numbered from the start id |
| Chunking.PackParagraphs | backend/main.py:82-98 | the groups, read in order, are exactly the paragraphs; there is at least one group; every group of two or more paragraphs has summed paragraph length at most 2000, separators not counted, so only a single oversized paragraph exceeds it; no group could take the next group's first paragraph |
| Chunking.SplitText | backend/main.py:76-102 | there is at least one chunk; each chunk is the `'\n\n'`-join of one group of consecutive paragraphs; joining the chunks with `'\n\n'` gives back the original text |
| Chunking.NonEmptyChunks | backend/main.py:224-225 | the chunk list is never empty, and a non-empty list is kept as it is |
| Chunking.SampleIndices | backend/main.py:226-231 | the sampled indices start at 0, strictly increase and stay in range. With more than one index the last chunk is included. There are 3 indices exactly when at most 20 questions are requested and there are at least 3 chunks, 5 exactly when at least 50 are requested and there are at least 5 chunks, and 1 otherwise |
| Chunking.SampledChunks | backend/main.py:226-232 | the first requests read the first chunk and, when there are several, end with the last; they read no more chunks than there are, and when the chunks are pairwise different so are the texts sent |
| Chunking.BatchSize | backend/main.py:253-254 | a batch asks for between 1 and 5 questions and never more than are still missing; it is 5 or exactly the remainder |
| Chunking.BatchChunkIndex | backend/main.py:257 | the chunk index is always a valid index |
| Chunking.BatchChunkAdvances | backend/main.py:257 | while the batch size stays the same (5, for every batch but a short last one), a batch that adds that many questions moves the next request on to the following chunk, wrapping around after the last. A short last batch can skip chunks: with 7 questions, 3 chunks and none from the first request, the batches read chunk 0 and then chunk `5 // 2 % 3 == 2` |
| Chunking.EmptyBatchesReadSameChunk | backend/main.py:257-294 | as written, any number of batches that keep no question leave the count unchanged, so every retry reads the same chunk again |
| Chunking.RetryChunkIndex | backend/main.py:257 | the corrected index is a valid index, and equals the index of line 257 when no batch had to be retried |
| Chunking.RetryReadsNextChunk | backend/main.py:291-294 | with the corrected index, each retry after an empty batch reads the next chunk, a different one whenever there are at least two |
| Dedup.OverlapBounded | backend/main.py:275-277 | the shared words number no more than either word set, and so no more than the larger one |
| Dedup.Similarity | backend/main.py:274-278 | the similarity lies between 0 and 1, and is 0 when neither text has a word |
| Dedup.SimilarIffAboveThreshold | backend/main.py:272-284 | the integer test `100 * overlap > 85 * larger` holds exactly when the real similarity exceeds 0.85 |
| Dedup.SimilaritySymmetric | backend/main.py:274-278 | similarity and the duplicate test do not depend on the order of the two texts |
| Dedup.NoWordsNeverSimilar | backend/main.py:278 | a text without words has similarity 0 with anything and is never a duplicate of it |
| Dedup.SameTextSimilar | backend/main.py:274-278 | a text with at least one word has similarity 1 with itself |
| Dedup.CheckDuplicate | backend/main.py:282-286 | the early-exit scan reports a duplicate exactly when some kept text is more than 85% similar |
| Dedup.DedupKeepsSubsequence | backend/main.py:280-289 | the unique batch is a subsequence of the batch: order kept, nothing invented |
| Dedup.DedupGrowsSeen | backend/main.py:289 | the set of kept texts afterwards is the old set plus the lower-cased texts of exactly the questions kept |
| Dedup.DedupKeepsDissimilar | backend/main.py:280-289 | no kept question is similar to a previously kept text, and no two kept questions are similar to each other |
| Dedup.DedupDropsOnlyDuplicates | backend/main.py:282-288 | every question dropped is a duplicate of some text kept by the end |
| Dedup.DedupSnoc | backend/main.py:280-289 | filtering a batch with one more question at the end is filtering the batch and then deciding that question against the texts recorded so far, in the loop's front-to-back order |
| Dedup.DedupPrefixStep | backend/main.py:280-289 | question `j` is kept exactly when it resembles neither an existing text nor a question kept before it, so of two similar questions the first wins |
| Dedup.FilterDuplicates | backend/main.py:280-289 | the loop computes the filter. The kept texts grow by exactly the kept questions. Kept questions are dissimilar to the old texts and to each other. Question `j` is kept exactly when it resembles no existing text and no question kept before it |
| Dedup.InitialDuplicateKept | backend/main.py:216-289 | as written, the batch loop's duplicate check starts from an empty set, so a batch question that repeats a question of the first request word for word is kept |
| Dedup.LoopStartSeen | backend/main.py:245-270 | the corrected start set holds exactly the lower-cased texts of the questions kept before the loop |
| Dedup.BatchAvoidsInitial | backend/main.py:270-289 | from the corrected start set, no question a batch keeps is similar to a question of the first request, and an exact repeat of one that has words is dropped |
| Finishing.Progress | backend/main.py:301 | progress is at most 100, is 100 exactly when the count is reached, and is the floor of the percentage: `p*n <= 100*c < (p+1)*n` below the target |
| Finishing.ProgressMonotone | backend/main.py:301 | more questions never show less progress |
| Finishing.Absorb | backend/main.py:291-313 | an empty unique batch changes nothing. Otherwise the new list extends the old and is a prefix of old plus batch, with length `min(old + batch, n)`. The loop stops exactly when `n` is reached |
| Finishing.AbsorbNeverOvershoots | backend/main.py:304-313 | a batch never leaves more than `n` questions, and the loop stops exactly when old plus batch reaches `n` |
| Finishing.ReindexNumbers | backend/main.py:469-470 | after re-numbering, ids are 1..n in list order, strictly increasing, and nothing but the id changed |
| Finishing.ReindexNumbered | backend/main.py:469-470 | a list already numbered 1..n is left unchanged, so re-numbering is idempotent |
| Finishing.FinalizeSound | backend/main.py:338-470 | a wrong count fails with that count. A finished list has `n` questions numbered 1..n; each keeps its text, explanation, topic and option keys, and its option texts are only permuted |
| Alignment.FirstMatch | backend/main.py:372-375 | there is no match exactly when no option text occurs in the lower-cased explanation; otherwise the key returned is that of the first option, in dictionary order, whose text occurs |
| Alignment.LetterMention | backend/main.py:377-380 | finds a letter exactly when a standalone capital A-D occurs, and returns the leftmost one |
| Alignment.LetterMentionOfLoweredIsNone | backend/main.py:368-380 | the letter search runs on the lower-cased explanation, so it never finds a letter |
| Alignment.AlignAnswer | backend/main.py:366-386 | alignment changes only the correct answer, and only to one of the option keys |
| Alignment.AlignAnswerPicksFirstMention | backend/main.py:366-383 | the aligned answer is the key of the first option the explanation mentions, or the old answer when there is no such option or its key is empty |
| Alignment.AlignAnswerIdempotent | backend/main.py:366-386 | aligning twice is aligning once |
| Alignment.AlignAllKeepsQuestions | backend/main.py:366-386 | aligning the list keeps its length and every field but the answers, and a second pass changes nothing |
| Redistribution.Tally | backend/main.py:395-397 | the tally succeeds exactly when every answer is one of A-D, and then each count is the number of times that letter is an answer; otherwise it raises `KeyError` on the first other answer |
| Redistribution.MaxCount | backend/main.py:400 | the maximum bounds every count and is one of them |
| Redistribution.OverrepresentedIffSomeLetter | backend/main.py:400-401 | redistribution is triggered exactly when some letter is the answer of more than 30% of the questions |
| Redistribution.WeightedCount | backend/main.py:406-409 | each letter occurs `4 - count` times in the weighted list, and never when it already has 4 or more |
| Redistribution.WeightedLetters | backend/main.py:403-409 | the weighted list holds only letters A-D |
| Redistribution.PoolDraw | backend/main.py:421-444 | at most 5 letters are popped. A hit happens exactly when one of the first 5 pool letters is a key other than the current answer. A hit is the first such letter; after a miss, `new_answer` is the last letter popped, or unchanged if the pool was empty |
| Redistribution.Fallback | backend/main.py:446-459 | the random stage finds nothing exactly when none of the five draws is a key other than the current answer; otherwise it returns the first such draw |
| Redistribution.MoveAnswer | backend/main.py:434-438 | moving the answer raises `KeyError` on the current answer exactly when that answer is not an option key; otherwise the target becomes the answer |
| Redistribution.RedistributeOneSound | backend/main.py:415-464 | one question keeps id, text, explanation, topic and keys. Its option texts are permuted, and its answer still points at the same text. The new answer is the old one, a pool letter or a draw. It fails only when the answer is not a key, and it leaves a part of the pool |
| Redistribution.RedistributeAll | backend/main.py:415-464 | the pass keeps the number of questions and fails only when some answer is not an option key |
| Redistribution.RedistributeAllSound | backend/main.py:415-464 | after the pass every question is its old self with a reassigned answer, drawn from the pool, its own draws or unchanged |
| Redistribution.Redistribute | backend/main.py:389-463 | a single question or a balanced tally leaves the list unchanged, and a result keeps the number of questions |
| Redistribution.RedistributeKeepsQuestions | backend/main.py:389-463 | on success every question keeps its id, text, explanation, topic and keys. Its option texts are permuted and its correct answer still names the same text |
| Redistribution.RedistributeFailures | backend/main.py:389-397 | failure means some answer is outside A-D or is not a key, and with two or more questions any answer outside A-D does fail |
| Redistribution.RedistributeAnswersAreLetters | backend/main.py:389-463 | after a successful redistribution of two or more questions every answer is one of A-D |
| Jobs.UpdateStatus | backend/main.py:192-196 | status, progress and step take the given values, the message is appended to the logs, and nothing else changes |
| Jobs.TopicSet | backend/main.py:500 | the topic set exists exactly when every question has a topic, otherwise `KeyError('topic')`; a string is in it exactly when some question has it as topic, and there are no more topics than questions |
| Jobs.StoreTopics | backend/main.py:500 | storing topics fails exactly when a question lacks one. Otherwise only the topics change, to a list naming each topic that occurs |
| Jobs.FinishOutcome | backend/main.py:472-511 | progress ends at 100. The questions are stored unless the Excel export raised first on a missing topic or option A-D. The job is "completed" exactly when the export went through (or was not asked for) and every question has a topic; then topics are stored, the step is 4, and three log lines follow. Otherwise it is "error" at step 1, with the failure as the last log line |
| Jobs.WritersKeepNoStartOrError | backend/main.py:192-209 | no writer of the job record ever sets a start time or an error text |
| Jobs.EtaWithoutStartIsZero | backend/main.py:578-590 | without a stored start time the estimated time left is 0 |
| Jobs.GetJobStatus | backend/main.py:568-611 | the endpoint fails with 500 exactly when the id is unknown or the record lacks status, progress, step or logs. Otherwise the counts are the list lengths, the preview is the first `min(3, n)` questions, and an error text appears only for status "error" |
| Jobs.UploadedJobIsUnreadable | backend/main.py:542-546 | polling a job before its background task has started fails with 500, since the record has no status |
| Jobs.ResponseOfBackendJob | backend/main.py:568-607 | for every record the backend writes, the response has no error text and an estimate of 0 |

## Left out

- File upload, text extraction (`_extract_text`) and writing the text to disk: I/O.
- The language-model calls of `_generate_questions` and `_translate_explanation`, and `json.loads`: these are foreign calls. Their outcome is the `Reply` parameter of `Validation.QuestionsFromReply`, and translation is not modelled.
- The thread pool, `asyncio` and the concurrent access to `JOBS`: concurrency.
- The batch `while` loop of lines 251-335 as one function. The loop calls the language model, so only its parts are modelled, each on its own:
  - the batch size and chunk index;
  - the duplicate filter;
  - absorbing a batch, including truncation and the stop test;
  - progress.
  The status writes inside the loop are not modelled as a sequence: line 259 writes progress 45 at the start of every iteration, line 293 writes 45, line 317 writes 45, line 323 writes 50 and line 312 writes 60 right after line 302 wrote 100. The stored progress therefore falls back below the value of line 301 between batches. Only the line-301 value is modelled, and only it is monotone (`Finishing.ProgressMonotone`). The conditions of the repeated checks at lines 326-335 can never be true, because lines 304-313 already left the loop in both cases.
- Line 245 keeps only the results of the first sampled chunk. The model selects the chunks, but does not model the gathered calls.
- `Strings.Lower`: maps only ASCII letters, not the full Unicode case mapping of `str.lower()`.
- `Alignment.LetterMention`: uses ASCII word characters for `\b`, not Unicode `\w`.
- Items whose keys hold values of the wrong type, such as a non-string option text. These would raise inside alignment, where the exception is swallowed, or elsewhere. They are left out, because the parsed JSON is taken to hold strings.
- The iteration order of `list(set(...))` at line 500 is not determined by the source. It is the parameter `order`, which lists each topic once.
- Excel export (lines 472-496): `Jobs.Finish` models its log lines and the `KeyError` its rows raise. Building the file name from the clock and writing the file are I/O; the write is taken to succeed.
- `generate_excel`: file output.
- The `detail` text of the `HTTPException` and the `print` calls: only the status code is modelled.
- `Finishing.Progress`: computes the exact floor of `100 * current / n`. The source multiplies a float quotient by 100 and truncates, which can be one lower: `int((29/100)*100)` is 28.
- `Redistribution.Redistribute`: the source assumes every answer is A-D. The model keeps the `KeyError` the tally raises otherwise instead of requiring it.
- The log messages of `update_job_status` are parameters. Their formatting with counts is not modelled. Nor are the log lines `_generate_questions` itself appends to the job's logs at lines 165, 170 and 174 (a count of the valid questions, or the text of a parse or call error); these reach the `logs` of the status response.

## Findings

| source | as written | input that shows it | evidently intended | confidence | as-written member | corrected member |
|---|---|---|---|---|---|---|
| backend/main.py:216-289 | `existing_question_texts` starts empty at line 216, and the questions of the first request (line 245) are never added to it | a first request returning question Q, then a batch returning Q again: the batch keeps Q, so the final list holds Q twice | the comment at line 270 says duplicates are removed against all previously kept questions, so the set should start with the texts of the first request | medium, not executed | Dedup.InitialDuplicateKept | Dedup.BatchAvoidsInitial |
| backend/main.py:257-294 | a batch that keeps no unique question ends in `continue` at line 294 without changing `len(generated_questions)` or `current_count`, so `batch_size` and the chunk index of line 257 are the same on the next iteration | 10 questions, 3 chunks, 5 questions from the first request, and a first batch request that fails, so that `_generate_questions` returns `[]` (lines 169-175): the batch is empty, and the retry reads chunk `5 // 5 % 3 == 1` again, as does every further retry while the calls keep failing. A later batch whose every question resembles a text kept by an earlier batch has the same effect | the comment at line 291 and the log line at line 293 say the retry uses a different chunk, so each empty batch should move on to the next chunk | medium, not executed | Chunking.EmptyBatchesReadSameChunk | Chunking.RetryReadsNextChunk |

=== FILE: alignment.dfy ===
/** Answer alignment (lines 366-386 of backend/main.py): the correct answer is
    moved to the first option whose text occurs in the explanation.
 */
module Alignment {
  import opened Common
  import opened Strings
  import opened Questions

  /** The option text, lower-cased, occurs in the lower-cased explanation. */
  predicate Mentioned(explanation: string, text: string) {
    Contains(Lower(explanation), Lower(text))
  }

  /** Lines 372-375: the key of the first option, in insertion order, whose
      text the explanation mentions. */
  function FirstMatch(opts: OptionList, explanation: string): (m: Option<string>)
    ensures m.None? <==> forall i :: 0 <= i < |opts| ==> !Mentioned(explanation, opts[i].1)
    ensures m.Some? ==> exists i :: (0 <= i < |opts| && opts[i].0 == m.value && Mentioned(explanation, opts[i].1)
      && forall j :: 0 <= j < i ==> !Mentioned(explanation, opts[j].1))
  {
    FirstMatchFrom(opts, explanation, 0)
  }

  /** The search of lines 372-375 from position `k` on, where the options before
      `k` are known not to be mentioned. */
  function FirstMatchFrom(opts: OptionList, explanation: string, k: nat): (m: Option<string>)
    requires k <= |opts|
    requires forall j :: 0 <= j < k ==> !Mentioned(explanation, opts[j].1)
    ensures m.None? <==> forall i :: 0 <= i < |opts| ==> !Mentioned(explanation, opts[i].1)
    ensures m.Some? ==> exists i :: (k <= i < |opts| && opts[i].0 == m.value && Mentioned(explanation, opts[i].1)
      && forall j :: 0 <= j < i ==> !Mentioned(explanation, opts[j].1))
    decreases |opts| - k
  {
    if k == |opts| then None
    else if Mentioned(explanation, opts[k].1) then Some(opts[k].0)
    else FirstMatchFrom(opts, explanation, k + 1)
  }

  /** The ASCII characters of `\w`. */
  predicate IsWordChar(c: char) {
    'a' <= c <= 'z' || 'A' <= c <= 'Z' || '0' <= c <= '9' || c == '_'
  }

  predicate IsOptionLetter(c: char) {
    [c] in Letters
  }

  /** `\b([ABCD])\b` matches at position `i`. */
  predicate LetterAt(s: string, i: int) {
    && 0 <= i < |s|
    && IsOptionLetter(s[i])
    && (i == 0 || !IsWordChar(s[i - 1]))
    && (i + 1 == |s| || !IsWordChar(s[i + 1]))
  }

  /** Lines 377-380: `re.search(r'\b([ABCD])\b', s)`, the leftmost standalone
      capital letter A-D, upper-cased. */
  function LetterMention(s: string): (m: Option<string>)
    ensures m.None? <==> forall i :: 0 <= i < |s| ==> !LetterAt(s, i)
    ensures m.Some? ==> exists i :: LetterAt(s, i) && m.value == [s[i]] && forall j :: 0 <= j < i ==> !LetterAt(s, j)
  {
    LetterMentionFrom(s, 0)
  }

  /** The search from position `k` on, where no match starts before `k`. */
  function LetterMentionFrom(s: string, k: nat): (m: Option<string>)
    requires k <= |s|
    requires forall j :: 0 <= j < k ==> !LetterAt(s, j)
    ensures m.None? <==> forall i :: 0 <= i < |s| ==> !LetterAt(s, i)
    ensures m.Some? ==> exists i :: (k <= i < |s| && LetterAt(s, i) && m.value == [s[i]]
      && forall j :: 0 <= j < i ==> !LetterAt(s, j))
    decreases |s| - k
  {
    if k == |s| then None
    else if LetterAt(s, k) then Some([s[k]])
    else LetterMentionFrom(s, k + 1)
  }

  /** The letter search runs on the lower-cased explanation, which holds no
      capital letter, so it never finds anything. */
  lemma LetterMentionOfLoweredIsNone(explanation: string)
    ensures LetterMention(Lower(explanation)) == None
  {
    LowerIsLower(explanation);
  }

  /** The letter the source settles on: the first mentioned option's key, and
      only when that key is not empty does the letter search stay unused. */
  function MatchedLetter(q: Question): Option<string> {
    var m := FirstMatch(q.options, q.explanation);
    if m.Some? && m.value != "" then m
    else LetterMention(Lower(q.explanation))
  }

  /** One question of the loop of lines 366-386. */
  function AlignAnswer(q: Question): (r: Question)
    ensures r.id == q.id && r.text == q.text && r.options == q.options
    ensures r.explanation == q.explanation && r.topic == q.topic
    ensures r.correctAnswer == q.correctAnswer || r.correctAnswer in Keys(q.options)
  {
    var m := MatchedLetter(q);
    if m.Some? && m.value != "" && m.value in Keys(q.options) && m.value != q.correctAnswer then
      q.(correctAnswer := m.value)
    else q
  }

  /** The aligned answer is the key of the first option the explanation
      mentions, unless no option is mentioned or that key is empty, in which
      case the answer is left alone. */
  lemma AlignAnswerPicksFirstMention(q: Question)
    ensures var m := FirstMatch(q.options, q.explanation);
      AlignAnswer(q).correctAnswer == if m.Some? && m.value != "" then m.value else q.correctAnswer
  {
    LetterMentionOfLoweredIsNone(q.explanation);
    var m := FirstMatch(q.options, q.explanation);
    if m.Some? {
      var i :| 0 <= i < |q.options| && q.options[i].0 == m.value && Mentioned(q.explanation, q.options[i].1)
        && forall j :: 0 <= j < i ==> !Mentioned(q.explanation, q.options[j].1);
      assert Keys(q.options)[i] == m.value;
    }
  }

  /** Aligning twice is aligning once. */
  lemma AlignAnswerIdempotent(q: Question)
    ensures AlignAnswer(AlignAnswer(q)) == AlignAnswer(q)
  {
    AlignAnswerPicksFirstMention(q);
    AlignAnswerPicksFirstMention(AlignAnswer(q));
  }

  /** The loop over all questions. */
  function AlignAll(qs: seq<Question>): seq<Question> {
    seq(|qs|, i requires 0 <= i < |qs| => AlignAnswer(qs[i]))
  }

  /** Aligning a list keeps every question but its answer, and a second pass
      changes nothing. */
  lemma AlignAllKeepsQuestions(qs: seq<Question>)
    ensures |AlignAll(qs)| == |qs|
    ensures forall i :: 0 <= i < |qs| ==>
      AlignAll(qs)[i] == qs[i].(correctAnswer := AlignAll(qs)[i].correctAnswer)
    ensures AlignAll(AlignAll(qs)) == AlignAll(qs)
  {
    forall i | 0 <= i < |qs| ensures AlignAnswer(AlignAnswer(qs[i])) == AlignAnswer(qs[i]) {
      AlignAnswerIdempotent(qs[i]);
    }
  }
}

=== FILE: chunking.dfy ===
/** `_split_text` and the arithmetic that decides which chunk each model
    request reads: the start/middle/end sample for the first requests and the
    rotating chunk index of the batch loop.
 */
module Chunking {
  import opened Strings

  /** The paragraph-length budget of one chunk; separators are not counted. */
  const ChunkLimit: nat := 2000

  /** The most questions one batch request asks for. */
  const MaxBatch: nat := 5

  /** The paragraphs of one chunk, in order. */
  type Group = seq<string>

  /** The summed length of some paragraphs (`current_length`). */
  function SumLen(ps: seq<string>): nat {
    if ps == [] then 0 else |ps[0]| + SumLen(ps[1..])
  }

  function Flatten(groups: seq<Group>): seq<string> {
    if groups == [] then [] else groups[0] + Flatten(groups[1..])
  }

  /** Every group is non-empty and either fits the budget or is one paragraph. */
  predicate GroupsFit(groups: seq<Group>) {
    forall k :: 0 <= k < |groups| ==>
      |groups[k]| >= 1 && (SumLen(groups[k]) <= ChunkLimit || |groups[k]| == 1)
  }

  /** Group `k - 1` could not have taken the first paragraph of group `k`. */
  predicate ClosedFull(groups: seq<Group>, k: int)
    requires 1 <= k < |groups|
  {
    |groups[k]| >= 1 && SumLen(groups[k - 1]) + |groups[k][0]| > ChunkLimit
  }

  /** No group could have taken the first paragraph of the next one. */
  predicate GroupsGreedy(groups: seq<Group>) {
    forall k :: 1 <= k < |groups| ==> ClosedFull(groups, k)
  }

  lemma {:induction false} SumLenAppend(ps: seq<string>, p: string)
    ensures SumLen(ps + [p]) == SumLen(ps) + |p|
    decreases |ps|
  {
    if ps == [] {
      assert ps + [p] == [p];
    } else {
      SumLenAppend(ps[1..], p);
      assert (ps + [p])[1..] == ps[1..] + [p];
    }
  }

  lemma {:induction false} FlattenAppend(groups: seq<Group>, g: seq<string>)
    ensures Flatten(groups + [g]) == Flatten(groups) + g
    decreases |groups|
  {
    if groups == [] {
      assert groups + [g] == [g];
    } else {
      FlattenAppend(groups[1..], g);
      assert (groups + [g])[1..] == groups[1..] + [g];
    }
  }

  lemma SumLenSingle(p: string)
    ensures SumLen([p]) == |p|
  {
    assert [p][1..] == [];
  }

  lemma PrefixStep(xs: seq<string>, i: nat)
    requires i < |xs|
    ensures xs[..i + 1] == xs[..i] + [xs[i]]
  {
  }

  /** Closing the current group keeps the packing well-formed. */
  lemma CloseGroup(groups: seq<Group>, g: seq<string>)
    requires GroupsFit(groups) && GroupsGreedy(groups)
    requires |g| >= 1 && (SumLen(g) <= ChunkLimit || |g| == 1)
    requires groups != [] ==> SumLen(groups[|groups| - 1]) + |g[0]| > ChunkLimit
    ensures GroupsFit(groups + [g]) && GroupsGreedy(groups + [g])
    ensures Flatten(groups + [g]) == Flatten(groups) + g
  {
    FlattenAppend(groups, g);
    var r := groups + [g];
    forall k | 1 <= k < |r|
      ensures ClosedFull(r, k)
    {
      if k < |groups| {
        assert ClosedFull(groups, k);
        assert r[k] == groups[k] && r[k - 1] == groups[k - 1];
      }
    }
  }

  /** The state of the packing loop: the chunks closed so far, the open chunk
      `current_chunk` and its summed length `current_length`. */
  datatype Packing = Packing(groups: seq<Group>, current: seq<string>, currentLength: nat)

  /** One iteration of the loop of lines 86-95. */
  function Step(st: Packing, para: string): Packing {
    if st.currentLength + |para| <= ChunkLimit then
      Packing(st.groups, st.current + [para], st.currentLength + |para|)
    else
      Packing(if st.current != [] then st.groups + [st.current] else st.groups, [para], |para|)
  }

  /** Lines 97-98: the open chunk, if any, is closed at the end. */
  function Close(st: Packing): seq<Group> {
    if st.current != [] then st.groups + [st.current] else st.groups
  }

  /** What the packing loop keeps true after reading the paragraphs `done`:
      the closed groups followed by the open one are exactly those paragraphs,
      and the groups are packed as the loop packs them. */
  predicate Packed(done: seq<string>, st: Packing) {
    && st.currentLength == SumLen(st.current)
    && Flatten(st.groups) + st.current == done
    && (done != [] ==> st.current != [])
    && (st.current == [] ==> st.groups == [])
    && (st.current != [] ==> SumLen(st.current) <= ChunkLimit || |st.current| == 1)
    && GroupsFit(st.groups)
    && GroupsGreedy(st.groups)
    && (st.groups != [] && st.current != [] ==>
          SumLen(st.groups[|st.groups| - 1]) + |st.current[0]| > ChunkLimit)
  }

  /** One iteration keeps the packing well-formed. */
  lemma StepPacked(paras: seq<string>, i: nat, st: Packing)
    requires i < |paras|
    requires Packed(paras[..i], st)
    ensures Packed(paras[..i + 1], Step(st, paras[i]))
  {
    PrefixStep(paras, i);
    var para := paras[i];
    if st.currentLength + |para| <= ChunkLimit {
      SumLenAppend(st.current, para);
    } else {
      SumLenSingle(para);
      if st.current != [] {
        CloseGroup(st.groups, st.current);
      }
    }
  }

  /** Closing the open group at the end yields a packing of all paragraphs. */
  lemma ClosePacked(paras: seq<string>, st: Packing)
    requires Packed(paras, st)
    ensures Flatten(Close(st)) == paras
    ensures |paras| >= 1 ==> |Close(st)| >= 1
    ensures GroupsFit(Close(st)) && GroupsGreedy(Close(st))
  {
    if st.current != [] {
      CloseGroup(st.groups, st.current);
    } else {
      assert Flatten(st.groups) + st.current == Flatten(st.groups);
    }
  }

  /** The loop of lines 86-98: greedily pack consecutive paragraphs while their
      summed length stays within the budget; an oversized paragraph becomes a
      group of its own. */
  method PackParagraphs(paras: seq<string>) returns (groups: seq<Group>)
    ensures Flatten(groups) == paras
    ensures |paras| >= 1 ==> |groups| >= 1
    ensures GroupsFit(groups)
    ensures GroupsGreedy(groups)
  {
    var st := Packing([], [], 0);
    for i := 0 to |paras|
      invariant Packed(paras[..i], st)
    {
      StepPacked(paras, i, st);
      st := Step(st, paras[i]);
    }
    assert paras[..|paras|] == paras;
    ClosePacked(paras, st);
    groups := Close(st);
  }

  /** Joining every group and then joining the chunks is joining all paragraphs. */
  lemma {:induction false} JoinGroups(groups: seq<Group>)
    requires |groups| >= 1
    requires forall k :: 0 <= k < |groups| ==> |groups[k]| >= 1
    ensures JoinParagraphs(seq(|groups|, k requires 0 <= k < |groups| => JoinParagraphs(groups[k])))
         == JoinParagraphs(Flatten(groups))
    decreases |groups|
  {
    var chunks := seq(|groups|, k requires 0 <= k < |groups| => JoinParagraphs(groups[k]));
    if |groups| == 1 {
      assert Flatten(groups) == groups[0] + Flatten([]);
      assert Flatten(groups) == groups[0];
    } else {
      var tail := groups[1..];
      JoinGroups(tail);
      var tailChunks := seq(|tail|, k requires 0 <= k < |tail| => JoinParagraphs(tail[k]));
      assert chunks[1..] == tailChunks;
      FlattenNonEmpty(tail);
      JoinParagraphsAppend(groups[0], Flatten(tail));
    }
  }

  lemma FlattenNonEmpty(groups: seq<Group>)
    requires |groups| >= 1 && |groups[0]| >= 1
    ensures |Flatten(groups)| >= 1
  {
  }

  /** `_split_text`: the chunks, each the '\n\n'-join of one group of
      consecutive paragraphs. Joining the chunks again gives back the text. */
  method SplitText(text: string) returns (chunks: seq<string>, groups: seq<Group>)
    ensures |chunks| >= 1
    ensures JoinParagraphs(chunks) == text
    ensures |chunks| == |groups|
    ensures forall k :: 0 <= k < |chunks| ==> chunks[k] == JoinParagraphs(groups[k])
    ensures Flatten(groups) == SplitParagraphs(text)
    ensures GroupsFit(groups) && GroupsGreedy(groups)
  {
    var paras := SplitParagraphs(text);
    groups := PackParagraphs(paras);
    chunks := seq(|groups|, k requires 0 <= k < |groups| => JoinParagraphs(groups[k]));
    JoinGroups(groups);
    JoinSplitParagraphs(text);
  }

  /** Lines 224-225: an empty chunk list is replaced by the whole text. */
  function NonEmptyChunks(chunks: seq<string>, text: string): (r: seq<string>)
    ensures |r| >= 1
    ensures |chunks| >= 1 ==> r == chunks
  {
    if |chunks| == 0 then [text] else chunks
  }

  /** Lines 226-231: the chunk indices of the first requests, with Python's
      index -1 written as the last index. */
  function SampleIndices(nQuestions: int, chunkCount: nat): (ix: seq<nat>)
    requires chunkCount >= 1
    ensures |ix| >= 1 && ix[0] == 0
    ensures forall k :: 0 <= k < |ix| ==> ix[k] < chunkCount
    ensures forall k, l :: 0 <= k < l < |ix| ==> ix[k] < ix[l]
    ensures |ix| > 1 ==> ix[|ix| - 1] == chunkCount - 1
    ensures |ix| == 3 <==> nQuestions <= 20 && chunkCount >= 3
    ensures |ix| == 5 <==> nQuestions >= 50 && chunkCount >= 5
    ensures |ix| == 1 <==> !(nQuestions <= 20 && chunkCount >= 3) && !(nQuestions >= 50 && chunkCount >= 5)
  {
    var m := chunkCount;
    if nQuestions <= 20 && m >= 3 then [0, m / 2, m - 1]
    else if nQuestions >= 50 && m >= 5 then [0, m / 4, m / 2, (3 * m) / 4, m - 1]
    else [0]
  }

  /** Line 232: the sampled chunks. */
  function SelectChunks(chunks: seq<string>, ix: seq<nat>): (selected: seq<string>)
    requires forall k :: 0 <= k < |ix| ==> ix[k] < |chunks|
    ensures |selected| == |ix|
    ensures forall k :: 0 <= k < |ix| ==> selected[k] == chunks[ix[k]]
  {
    seq(|ix|, k requires 0 <= k < |ix| => chunks[ix[k]])
  }

  /** The first requests read the first chunk, then (when there are several)
      chunks further on, ending with the last one. They read no more chunks
      than there are, and when the chunks differ, so do the requests. */
  lemma SampledChunks(nQuestions: int, chunks: seq<string>)
    requires |chunks| >= 1
    ensures var selected := SelectChunks(chunks, SampleIndices(nQuestions, |chunks|));
      && selected[0] == chunks[0]
      && (|selected| > 1 ==> selected[|selected| - 1] == chunks[|chunks| - 1])
      && |selected| <= |chunks|
      && ((forall i, j :: 0 <= i < j < |chunks| ==> chunks[i] != chunks[j]) ==>
            forall k, l :: 0 <= k < l < |selected| ==> selected[k] != selected[l])
  {
  }

  /** Line 254: `min(remaining_questions, 5)`, defined while the loop condition
      `current_count < n_questions` holds. */
  function BatchSize(nQuestions: int, currentCount: int): (b: nat)
    requires currentCount < nQuestions
    ensures 1 <= b <= MaxBatch
    ensures b <= nQuestions - currentCount
    ensures b == MaxBatch || b == nQuestions - currentCount
  {
    var remaining := nQuestions - currentCount;
    if remaining < MaxBatch then remaining else MaxBatch
  }

  /** Line 257: `len(generated_questions) // batch_size % len(chunks)`. */
  function BatchChunkIndex(generated: nat, batchSize: nat, chunkCount: nat): (k: nat)
    requires batchSize >= 1 && chunkCount >= 1
    ensures k < chunkCount
  {
    (generated / batchSize) % chunkCount
  }

  /** While the batch size stays the same, a batch that adds `batchSize`
      questions moves the next request on to the following chunk, wrapping
      around after the last one. */
  lemma BatchChunkAdvances(generated: nat, batchSize: nat, chunkCount: nat)
    requires batchSize >= 1 && chunkCount >= 1
    ensures BatchChunkIndex(generated + batchSize, batchSize, chunkCount)
         == (BatchChunkIndex(generated, batchSize, chunkCount) + 1) % chunkCount
  {
    var q := generated / batchSize;
    var r := generated % batchSize;
    assert generated == q * batchSize + r;
    assert generated + batchSize == (q + 1) * batchSize + r;
    DivModUnique(generated + batchSize, batchSize, q + 1, r);
    ModSucc(q, chunkCount);
  }

  /** `current_count` after batches that kept the given numbers of unique
      questions (line 298), before any truncation. */
  function CountAfter(count: nat, kept: seq<nat>): (c: nat)
    ensures c >= count
    decreases |kept|
  {
    if |kept| == 0 then count else CountAfter(count + kept[0], kept[1..])
  }

  /** Lines 291-294 as written: a batch that keeps no question leaves both
      `len(generated_questions)` and `batch_size` as they were, so however
      many such batches follow, every retry reads the chunk the first one
      read, although the comment of line 291 and the log line of line 293
      promise different content. */
  lemma {:induction false} EmptyBatchesReadSameChunk(nQuestions: int, count: nat, chunkCount: nat, kept: seq<nat>)
    requires count < nQuestions && chunkCount >= 1
    requires forall i :: 0 <= i < |kept| ==> kept[i] == 0
    ensures var after := CountAfter(count, kept);
      && after == count
      && BatchChunkIndex(after, BatchSize(nQuestions, after), chunkCount)
         == BatchChunkIndex(count, BatchSize(nQuestions, count), chunkCount)
    decreases |kept|
  {
    if |kept| > 0 {
      EmptyBatchesReadSameChunk(nQuestions, count, chunkCount, kept[1..]);
    }
  }

  /** The chunk index the comment of line 291 asks for: `retries` counts the
      batches in a row that kept no question, and each of them moves the next
      request on by one chunk. Without retries it is the index of line 257. */
  function RetryChunkIndex(generated: nat, batchSize: nat, retries: nat, chunkCount: nat): (k: nat)
    requires batchSize >= 1 && chunkCount >= 1
    ensures k < chunkCount
    ensures retries == 0 ==> k == BatchChunkIndex(generated, batchSize, chunkCount)
  {
    (generated / batchSize + retries) % chunkCount
  }

  /** With the retry count, a batch that kept nothing is retried on the next
      chunk, which differs from the one just read whenever there are several. */
  lemma RetryReadsNextChunk(generated: nat, batchSize: nat, retries: nat, chunkCount: nat)
    requires batchSize >= 1 && chunkCount >= 1
    ensures RetryChunkIndex(generated, batchSize, retries + 1, chunkCount)
         == (RetryChunkIndex(generated, batchSize, retries, chunkCount) + 1) % chunkCount
    ensures chunkCount >= 2 ==>
      RetryChunkIndex(generated, batchSize, retries + 1, chunkCount)
      != RetryChunkIndex(generated, batchSize, retries, chunkCount)
  {
    ModSucc(generated / batchSize + retries, chunkCount);
  }

  lemma ModSucc(q: nat, m: nat)
    requires m >= 1
    ensures (q + 1) % m == (q % m + 1) % m
  {
    var r := q % m;
    assert q == (q / m) * m + r;
    assert q + 1 == (q / m) * m + (r + 1);
    if r + 1 < m {
      DivModUnique(q + 1, m, q / m, r + 1);
    } else {
      assert q + 1 == (q / m + 1) * m;
      DivModUnique(q + 1, m, q / m + 1, 0);
    }
  }

  /** Division with remainder has only one solution. */
  lemma DivModUnique(x: nat, m: nat, d: nat, r: nat)
    requires m >= 1 && r < m && x == d * m + r
    ensures x / m == d && x % m == r
  {
    var q := x / m;
    assert x == q * m + x % m;
    if d < q {
      assert (d + 1) * m == d * m + m;
      MulMonotone(d + 1, q, m);
      assert false;
    } else if q < d {
      assert (q + 1) * m == q * m + m;
      MulMonotone(q + 1, d, m);
      assert false;
    }
  }

  lemma MulMonotone(a: nat, b: nat, m: nat)
    requires a <= b
    ensures a * m <= b * m
  {
    assert b * m == a * m + (b - a) * m;
  }
}

=== FILE: common.dfy ===
/** Failure-carrying values shared by the whole model.

    The backend signals failure by raising Python exceptions (a `KeyError` on a
    missing dictionary key, a `ValueError` for a wrong question count, an
    `HTTPException` in the status endpoint). The model returns those as
    `Failure` values instead.
 */
module Common {

  /** A value that may be absent: a dictionary key that is not present. */
  datatype Option<+T> = None | Some(value: T) {

    /** The value, or `default` when absent (Python's `dict.get(key, default)`). */
    function GetOr(default: T): T {
      match this
      case Some(v) => v
      case None => default
    }
  }

  /** Either a computed value or the exception that ended the computation. */
  datatype Result<+T, +E> = Success(value: T) | Failure(error: E)

  /** The exceptions the post-processing code can raise. */
  datatype Raised =
    | KeyError(key: string)          // a dictionary lookup of a missing key
    | WrongCount(expected: int)      // "Failed to generate exactly n questions"

}

=== FILE: dedup.dfy ===
/** Duplicate filtering in the batch loop: `calculate_similarity` compares the
    sets of whitespace-separated words of two lower-cased question texts, and a
    question is dropped when it is more than 85% similar to any text kept so far.
 */
module Dedup {
  import opened Strings
  import opened Questions

  /** `len(words1 & words2)`. */
  function Overlap(t1: string, t2: string): nat {
    |WordSet(t1) * WordSet(t2)|
  }

  /** `max(len(words1), len(words2))`. */
  function Larger(t1: string, t2: string): nat {
    if |WordSet(t1)| >= |WordSet(t2)| then |WordSet(t1)| else |WordSet(t2)|
  }

  lemma SubsetCard<T>(a: set<T>, b: set<T>)
    requires a <= b
    ensures |a| <= |b|
    decreases |b|
  {
    if a != {} {
      var x :| x in a;
      SubsetCard(a - {x}, b - {x});
    }
  }

  /** The shared words are no more than the words of either text. */
  lemma OverlapBounded(t1: string, t2: string)
    ensures Overlap(t1, t2) <= |WordSet(t1)| && Overlap(t1, t2) <= |WordSet(t2)|
    ensures Overlap(t1, t2) <= Larger(t1, t2)
  {
    SubsetCard(WordSet(t1) * WordSet(t2), WordSet(t1));
    SubsetCard(WordSet(t1) * WordSet(t2), WordSet(t2));
  }

  lemma RatioBounds(o: real, d: real)
    requires 0.0 <= o <= d && d > 0.0
    ensures 0.0 <= o / d <= 1.0
  {
    assert (o / d) * d == o;
  }

  lemma RatioAbove(o: real, d: real, c: real)
    requires d > 0.0
    ensures o / d > c <==> o > c * d
  {
    var r := o / d;
    assert r * d == o;
    if r > c {
      assert r * d > c * d;
    }
    if o > c * d {
      assert r * d > c * d;
    }
  }

  /** `calculate_similarity(q1, q2)` over exact reals: the share of words in
      common relative to the larger word set, 0 when both have no words. */
  function Similarity(t1: string, t2: string): (r: real)
    ensures 0.0 <= r <= 1.0
    ensures Larger(t1, t2) == 0 ==> r == 0.0
  {
    OverlapBounded(t1, t2);
    if Larger(t1, t2) == 0 then 0.0
    else
      RatioBounds(Overlap(t1, t2) as real, Larger(t1, t2) as real);
      Overlap(t1, t2) as real / Larger(t1, t2) as real
  }

  /** The threshold `similarity_threshold = 0.85`. */
  const Threshold: real := 0.85

  /** `calculate_similarity(t1, t2) > 0.85`, decided on integers. */
  predicate Similar(t1: string, t2: string) {
    100 * Overlap(t1, t2) > 85 * Larger(t1, t2)
  }

  /** The integer test is exactly the comparison of the real ratio with 0.85. */
  lemma SimilarIffAboveThreshold(t1: string, t2: string)
    ensures Similar(t1, t2) <==> Similarity(t1, t2) > Threshold
  {
    var o := Overlap(t1, t2) as real;
    var d := Larger(t1, t2) as real;
    if Larger(t1, t2) != 0 {
      assert Similarity(t1, t2) == o / d;
      RatioAbove(o, d, Threshold);
    }
  }

  /** Similarity does not depend on the order of its arguments. */
  lemma SimilaritySymmetric(t1: string, t2: string)
    ensures Similarity(t1, t2) == Similarity(t2, t1)
    ensures Similar(t1, t2) <==> Similar(t2, t1)
  {
    assert WordSet(t1) * WordSet(t2) == WordSet(t2) * WordSet(t1);
  }

  /** A text without words is similar to nothing. */
  lemma NoWordsNeverSimilar(t1: string, t2: string)
    requires WordSet(t1) == {}
    ensures Similarity(t1, t2) == 0.0
    ensures !Similar(t1, t2)
  {
    assert WordSet(t1) * WordSet(t2) == {};
  }

  /** A text with at least one word is fully similar to itself, so an exact
      repeat is always a duplicate. */
  lemma SameTextSimilar(t: string)
    requires WordSet(t) != {}
    ensures Similarity(t, t) == 1.0
    ensures Similar(t, t)
  {
    assert WordSet(t) * WordSet(t) == WordSet(t);
  }

  /** Lines 283-286: some kept text is similar to `t`. */
  predicate IsDuplicate(t: string, existing: set<string>) {
    exists e :: e in existing && Similar(t, e)
  }

  /** The inner loop of lines 283-286, which stops at the first similar text. */
  method CheckDuplicate(t: string, existing: set<string>) returns (dup: bool)
    ensures dup <==> IsDuplicate(t, existing)
  {
    dup := false;
    var unseen := existing;
    while unseen != {}
      invariant unseen <= existing
      invariant forall e :: e in existing - unseen ==> !Similar(t, e)
      decreases unseen
    {
      var e :| e in unseen;
      if Similar(t, e) {
        dup := true;
        break;
      }
      unseen := unseen - {e};
    }
  }

  /** The lower-cased texts of some questions. */
  function KeptTexts(qs: seq<Question>): set<string> {
    set i | 0 <= i < |qs| :: Lower(qs[i].text)
  }

  ghost predicate IsSubsequence<T>(a: seq<T>, b: seq<T>)
    decreases |b|
  {
    if a == [] then true
    else if b == [] then false
    else (a[0] == b[0] && IsSubsequence(a[1..], b[1..])) || IsSubsequence(a, b[1..])
  }

  /** The batch loop of lines 280-289 as a function: the kept questions and the
      grown set of kept texts. */
  function Deduplicate(batch: seq<Question>, existing: set<string>): (seq<Question>, set<string>) {
    if batch == [] then ([], existing)
    else
      var t := Lower(batch[0].text);
      if IsDuplicate(t, existing) then Deduplicate(batch[1..], existing)
      else
        var (kept, seen) := Deduplicate(batch[1..], existing + {t});
        ([batch[0]] + kept, seen)
  }

  lemma KeptTextsCons(q: Question, qs: seq<Question>)
    ensures KeptTexts([q] + qs) == {Lower(q.text)} + KeptTexts(qs)
  {
    var r := [q] + qs;
    forall x | x in KeptTexts(r) ensures x in {Lower(q.text)} + KeptTexts(qs) {
      var i :| 0 <= i < |r| && x == Lower(r[i].text);
      if i > 0 {
        assert r[i] == qs[i - 1];
      }
    }
    forall x | x in KeptTexts(qs) ensures x in KeptTexts(r) {
      var i :| 0 <= i < |qs| && x == Lower(qs[i].text);
      assert r[i + 1] == qs[i];
    }
    assert Lower(r[0].text) in KeptTexts(r);
  }

  /** The filter keeps an order-preserving subsequence of the batch. */
  lemma {:induction false} DedupKeepsSubsequence(batch: seq<Question>, existing: set<string>)
    ensures IsSubsequence(Deduplicate(batch, existing).0, batch)
    decreases |batch|
  {
    if batch != [] {
      var t := Lower(batch[0].text);
      if IsDuplicate(t, existing) {
        DedupKeepsSubsequence(batch[1..], existing);
        var kept := Deduplicate(batch[1..], existing).0;
        if kept != [] {
          assert IsSubsequence(kept, batch[1..]);
        }
      } else {
        DedupKeepsSubsequence(batch[1..], existing + {t});
        var rest := Deduplicate(batch[1..], existing + {t}).0;
        assert ([batch[0]] + rest)[1..] == rest;
      }
    }
  }

  /** The set of kept texts grows by exactly the texts of the kept questions. */
  lemma {:induction false} DedupGrowsSeen(batch: seq<Question>, existing: set<string>)
    ensures Deduplicate(batch, existing).1 == existing + KeptTexts(Deduplicate(batch, existing).0)
    decreases |batch|
  {
    if batch != [] {
      var t := Lower(batch[0].text);
      if IsDuplicate(t, existing) {
        DedupGrowsSeen(batch[1..], existing);
      } else {
        DedupGrowsSeen(batch[1..], existing + {t});
        KeptTextsCons(batch[0], Deduplicate(batch[1..], existing + {t}).0);
      }
    }
  }

  /** No question of `kept` is similar to a text of `existing`. */
  predicate NoneDuplicate(kept: seq<Question>, existing: set<string>) {
    forall i :: 0 <= i < |kept| ==> !IsDuplicate(Lower(kept[i].text), existing)
  }

  /** No question of `kept` is similar to one kept before it. */
  predicate PairwiseDissimilar(kept: seq<Question>) {
    forall i, j :: 0 <= j < i < |kept| ==> !Similar(Lower(kept[i].text), Lower(kept[j].text))
  }

  lemma NotDuplicateNotSimilar(t: string, existing: set<string>, e: string)
    requires e in existing
    requires !IsDuplicate(t, existing)
    ensures !Similar(t, e)
  {
  }

  lemma NotDuplicateOfSubset(t: string, small: set<string>, large: set<string>)
    requires small <= large
    requires !IsDuplicate(t, large)
    ensures !IsDuplicate(t, small)
  {
  }

  /** Putting a question that is not a duplicate in front of a list that avoids
      its text keeps the list clear of the existing texts ... */
  lemma KeepFrontNoneDuplicate(q: Question, rest: seq<Question>, existing: set<string>)
    requires !IsDuplicate(Lower(q.text), existing)
    requires NoneDuplicate(rest, existing + {Lower(q.text)})
    ensures NoneDuplicate([q] + rest, existing)
  {
    var kept := [q] + rest;
    forall i | 0 <= i < |kept| ensures !IsDuplicate(Lower(kept[i].text), existing) {
      if i > 0 {
        assert kept[i] == rest[i - 1];
        NotDuplicateOfSubset(Lower(rest[i - 1].text), existing, existing + {Lower(q.text)});
      }
    }
  }

  /** ... and free of similar pairs: the front question is apart from every
      later one because their texts avoid its text, ... */
  lemma FrontPairApart(q: Question, rest: seq<Question>, existing: set<string>, i: nat)
    requires NoneDuplicate(rest, existing + {Lower(q.text)})
    requires i < |rest|
    ensures !Similar(Lower(rest[i].text), Lower(q.text))
  {
    NotDuplicateNotSimilar(Lower(rest[i].text), existing + {Lower(q.text)}, Lower(q.text));
  }

  /** ... so the list with the front question added has no similar pair. */
  lemma KeepFrontPairwise(q: Question, rest: seq<Question>, existing: set<string>)
    requires NoneDuplicate(rest, existing + {Lower(q.text)})
    requires PairwiseDissimilar(rest)
    ensures PairwiseDissimilar([q] + rest)
  {
    var kept := [q] + rest;
    assert kept[0] == q;
    assert forall i :: 1 <= i < |kept| ==> kept[i] == rest[i - 1];
    forall i, j | 0 <= j < i < |kept| ensures !Similar(Lower(kept[i].text), Lower(kept[j].text)) {
      if j == 0 {
        FrontPairApart(q, rest, existing, i - 1);
      }
    }
  }

  /** No kept question is similar to an existing text or to a question kept
      before it. */
  lemma {:induction false} DedupKeepsDissimilar(batch: seq<Question>, existing: set<string>)
    ensures NoneDuplicate(Deduplicate(batch, existing).0, existing)
    ensures PairwiseDissimilar(Deduplicate(batch, existing).0)
    decreases |batch|
  {
    if batch != [] {
      var q := batch[0];
      var t := Lower(q.text);
      if IsDuplicate(t, existing) {
        DedupKeepsDissimilar(batch[1..], existing);
      } else {
        DedupKeepsDissimilar(batch[1..], existing + {t});
        var rest := Deduplicate(batch[1..], existing + {t}).0;
        KeepFrontNoneDuplicate(q, rest, existing);
        KeepFrontPairwise(q, rest, existing);
      }
    }
  }

  /** Every question the filter drops is similar to a text in the final set. */
  lemma {:induction false} DedupDropsOnlyDuplicates(batch: seq<Question>, existing: set<string>)
    ensures forall j :: 0 <= j < |batch| && batch[j] !in Deduplicate(batch, existing).0 ==>
      IsDuplicate(Lower(batch[j].text), Deduplicate(batch, existing).1)
    decreases |batch|
  {
    if batch != [] {
      var q := batch[0];
      var t := Lower(q.text);
      var existing' := if IsDuplicate(t, existing) then existing else existing + {t};
      DedupDropsOnlyDuplicates(batch[1..], existing');
      DedupGrowsSeen(batch[1..], existing');
      var (rest, seen) := Deduplicate(batch[1..], existing');
      forall j | 0 <= j < |batch| && batch[j] !in Deduplicate(batch, existing).0
        ensures IsDuplicate(Lower(batch[j].text), seen)
      {
        if j == 0 {
          var e :| e in existing && Similar(t, e);
          assert e in seen;
        } else {
          assert batch[j] == batch[1..][j - 1];
        }
      }
    }
  }

  /** One pass of the loop body of lines 281-289 on what the earlier
      questions left: the question is appended and its text recorded, unless
      it resembles a recorded text. */
  function Admit(state: (seq<Question>, set<string>), q: Question): (seq<Question>, set<string>) {
    var t := Lower(q.text);
    if IsDuplicate(t, state.1) then state else (state.0 + [q], state.1 + {t})
  }

  /** Filtering a batch with one more question at the end is filtering the
      batch and then admitting that question, which is the loop's own order. */
  lemma {:induction false} DedupSnoc(batch: seq<Question>, q: Question, existing: set<string>)
    ensures Deduplicate(batch + [q], existing) == Admit(Deduplicate(batch, existing), q)
    decreases |batch|
  {
    if batch == [] {
      assert [] + [q] == [q] && [q] + [] == [q];
    } else {
      var b := batch + [q];
      assert b[0] == batch[0];
      assert b[1..] == batch[1..] + [q];
      var t := Lower(batch[0].text);
      if IsDuplicate(t, existing) {
        DedupSnoc(batch[1..], q, existing);
      } else {
        DedupSnoc(batch[1..], q, existing + {t});
        var kept := Deduplicate(batch[1..], existing + {t}).0;
        assert [batch[0]] + (kept + [q]) == ([batch[0]] + kept) + [q];
      }
    }
  }

  /** Question `j` is kept exactly when it resembles neither a text of
      `existing` nor a question kept before it. */
  predicate FirstWins(batch: seq<Question>, existing: set<string>, j: nat)
    requires j < |batch|
  {
    var before := Deduplicate(batch[..j], existing).0;
    Deduplicate(batch[..j + 1], existing).0 ==
      if IsDuplicate(Lower(batch[j].text), existing + KeptTexts(before)) then before else before + [batch[j]]
  }

  /** The filter reads the batch front to back, so of two similar questions
      the first is kept and the second dropped. */
  lemma DedupPrefixStep(batch: seq<Question>, existing: set<string>, j: nat)
    requires j < |batch|
    ensures FirstWins(batch, existing, j)
  {
    assert batch[..j + 1] == batch[..j] + [batch[j]];
    DedupSnoc(batch[..j], batch[j], existing);
    DedupGrowsSeen(batch[..j], existing);
  }

  /** The batch loop of lines 280-289. */
  method FilterDuplicates(batch: seq<Question>, existing: set<string>) returns (unique: seq<Question>, seen: set<string>)
    ensures (unique, seen) == Deduplicate(batch, existing)
    ensures seen == existing + KeptTexts(unique)
    ensures NoneDuplicate(unique, existing) && PairwiseDissimilar(unique)
    ensures forall j :: 0 <= j < |batch| && batch[j] !in unique ==> IsDuplicate(Lower(batch[j].text), seen)
    ensures forall j :: 0 <= j < |batch| ==> FirstWins(batch, existing, j)
  {
    unique := [];
    seen := existing;
    assert batch[0..] == batch;
    assert [] + Deduplicate(batch, existing).0 == Deduplicate(batch, existing).0;
    for i := 0 to |batch|
      invariant Deduplicate(batch, existing) == (unique + Deduplicate(batch[i..], seen).0, Deduplicate(batch[i..], seen).1)
    {
      var question := batch[i];
      var lowered := Lower(question.text);
      var isDuplicate := CheckDuplicate(lowered, seen);
      assert batch[i..][1..] == batch[i + 1..];
      assert batch[i..][0] == question;
      if !isDuplicate {
        var next := Deduplicate(batch[i + 1..], seen + {lowered});
        assert Deduplicate(batch[i..], seen) == ([question] + next.0, next.1);
        assert unique + ([question] + next.0) == (unique + [question]) + next.0;
        unique := unique + [question];
        seen := seen + {lowered};
      }
    }
    assert batch[|batch|..] == [];
    assert unique + [] == unique;
    DedupGrowsSeen(batch, existing);
    DedupKeepsDissimilar(batch, existing);
    DedupDropsOnlyDuplicates(batch, existing);
    forall j | 0 <= j < |batch| ensures FirstWins(batch, existing, j) {
      DedupPrefixStep(batch, existing, j);
    }
  }

  /** The set of lower-cased texts the batch loop starts from, as written:
      line 216 creates it empty and nothing adds the questions of the first
      request (line 245), so they are never compared against. */
  function LoopStartSeenAsWritten(initial: seq<Question>): set<string> {
    {}
  }

  /** As written, a batch question repeating a question of the first request
      word for word is still kept. */
  lemma InitialDuplicateKept(q: Question)
    ensures Deduplicate([q], LoopStartSeenAsWritten([q])).0 == [q]
  {
    assert !IsDuplicate(Lower(q.text), {});
  }

  /** The start set the comment of line 270 asks for: the texts of every
      question kept so far, the first request's included. */
  function LoopStartSeen(initial: seq<Question>): (seen: set<string>)
    ensures forall i :: 0 <= i < |initial| ==> Lower(initial[i].text) in seen
    ensures forall t :: t in seen ==> exists i :: 0 <= i < |initial| && Lower(initial[i].text) == t
  {
    KeptTexts(initial)
  }

  /** Starting from the corrected set, no question a batch keeps is similar
      to a question of the first request, so an exact repeat of one (with at
      least one word) is dropped. */
  lemma BatchAvoidsInitial(initial: seq<Question>, batch: seq<Question>)
    ensures var kept := Deduplicate(batch, LoopStartSeen(initial)).0;
      forall k, i :: 0 <= k < |kept| && 0 <= i < |initial| ==>
        !Similar(Lower(kept[k].text), Lower(initial[i].text))
    ensures forall q :: q in initial && WordSet(Lower(q.text)) != {} ==>
      Deduplicate([q], LoopStartSeen(initial)).0 == []
  {
    var seen := LoopStartSeen(initial);
    var kept := Deduplicate(batch, seen).0;
    DedupKeepsDissimilar(batch, seen);
    forall k, i | 0 <= k < |kept| && 0 <= i < |initial|
      ensures !Similar(Lower(kept[k].text), Lower(initial[i].text))
    {
      NotDuplicateNotSimilar(Lower(kept[k].text), seen, Lower(initial[i].text));
    }
    forall q | q in initial && WordSet(Lower(q.text)) != {}
      ensures Deduplicate([q], seen).0 == []
    {
      SameTextSimilar(Lower(q.text));
      assert IsDuplicate(Lower(q.text), seen);
    }
  }
}

=== FILE: finishing.dfy ===
/** The arithmetic of the batch loop and the steps that finish a question list:
    progress, absorbing a deduplicated batch with truncation to the requested
    count, the exact-count check, answer alignment, redistribution and
    re-numbering.
 */
module Finishing {
  import opened Common
  import opened Questions
  import Alignment
  import Redistribution

  /** Line 301: `min(100, int((current_count / n_questions) * 100))`, with the
      quotient taken exactly. The loop only gets here with `n_questions >= 1`. */
  function Progress(current: nat, n: nat): (p: nat)
    requires n >= 1
    ensures p <= 100
    ensures p == 100 <==> current >= n
    ensures p * n <= 100 * current
    ensures current < n ==> 100 * current < (p + 1) * n
  {
    if 100 * current / n >= 100 then 100 else 100 * current / n
  }

  /** More questions never show less progress. */
  lemma ProgressMonotone(a: nat, b: nat, n: nat)
    requires n >= 1 && a <= b
    ensures Progress(a, n) <= Progress(b, n)
  {
    if Progress(a, n) > Progress(b, n) {
      var pa, pb := Progress(a, n), Progress(b, n);
      assert b < n;
      assert (pb + 1) * n <= pa * n by {
        MulLe(pb + 1, pa, n);
      }
      assert false;
    }
  }

  lemma MulLe(x: nat, y: nat, n: nat)
    requires x <= y
    ensures x * n <= y * n
  {
  }

  /** What one pass of the batch loop does with its deduplicated batch. */
  datatype Absorbed = Absorbed(questions: seq<Question>, done: bool)

  /** Lines 291-313: an empty batch changes nothing; otherwise it is appended,
      and the loop ends once the count is reached, cutting any excess. */
  function Absorb(generated: seq<Question>, unique: seq<Question>, n: nat): (r: Absorbed)
    requires |generated| < n
    ensures unique == [] ==> r == Absorbed(generated, false)
    ensures r.questions <= generated + unique
    ensures generated <= r.questions
    ensures |r.questions| == if |generated| + |unique| <= n then |generated| + |unique| else n
    ensures r.done <==> |r.questions| == n
  {
    if unique == [] then Absorbed(generated, false)
    else
      var all := generated + unique;
      if |all| == n then Absorbed(all, true)
      else if |all| > n then
        assert generated <= all[..n];
        Absorbed(all[..n], true)
      else Absorbed(all, false)
  }

  /** Absorbing never overshoots: starting below `n`, at most `n` questions
      come out, and any batch large enough finishes the loop with exactly `n`. */
  lemma AbsorbNeverOvershoots(generated: seq<Question>, unique: seq<Question>, n: nat)
    requires |generated| < n
    ensures |Absorb(generated, unique, n).questions| <= n
    ensures |generated| + |unique| >= n ==> Absorb(generated, unique, n).done
    ensures Absorb(generated, unique, n).done ==> |generated| + |unique| >= n
  {
  }

  /** Lines 338-339: anything but exactly `n` questions raises `ValueError`. */
  function ExactCount(qs: seq<Question>, n: int): (r: Result<seq<Question>, Raised>)
    ensures r.Success? <==> |qs| == n
    ensures r.Success? ==> r.value == qs
    ensures r.Failure? ==> r.error == WrongCount(n)
  {
    if |qs| != n then Failure(WrongCount(n)) else Success(qs)
  }

  /** Lines 469-470: ids become 1, 2, ... in list order. */
  function Reindex(qs: seq<Question>): (rs: seq<Question>)
    ensures |rs| == |qs|
  {
    seq(|qs|, i requires 0 <= i < |qs| => qs[i].(id := i + 1))
  }

  /** Re-numbering gives the ids 1..n in order and changes nothing else. */
  lemma ReindexNumbers(qs: seq<Question>)
    ensures forall i :: 0 <= i < |qs| ==> Reindex(qs)[i].id == i + 1
    ensures forall i :: 0 <= i < |qs| ==> Reindex(qs)[i] == qs[i].(id := Reindex(qs)[i].id)
    ensures forall i, j :: 0 <= i < j < |qs| ==> Reindex(qs)[i].id < Reindex(qs)[j].id
  {
  }

  /** Re-numbering a list already numbered from 1 changes nothing, so it is
      idempotent. */
  lemma ReindexNumbered(qs: seq<Question>)
    requires forall i :: 0 <= i < |qs| ==> qs[i].id == i + 1
    ensures Reindex(qs) == qs
    ensures Reindex(Reindex(qs)) == Reindex(qs)
  {
    assert forall i :: 0 <= i < |qs| ==> Reindex(qs)[i] == qs[i];
  }

  /** Lines 338-470: the count check, answer alignment, redistribution and
      re-numbering. The translation of lines 341-363, which runs after the
      count check and only rewrites explanations, is not modelled: `qs` stands
      for the list as translated. `pool` and `draws` stand for the shuffle and
      the random choices of the redistribution. */
  function Finalize(qs: seq<Question>, n: int, pool: seq<string>, draws: seq<seq<string>>): (r: Result<seq<Question>, Raised>)
    requires Redistribution.WellFormed(qs)
    requires Redistribution.LetterDraws(qs, draws)
    requires Redistribution.ShuffledWeighted(Alignment.AlignAll(qs), pool)
  {
    var counted := ExactCount(qs, n);
    if counted.Failure? then Failure(counted.error)
    else
      var aligned := Alignment.AlignAll(qs);
      Alignment.AlignAllKeepsQuestions(qs);
      var spread := Redistribution.Redistribute(aligned, pool, draws);
      if spread.Failure? then Failure(spread.error)
      else Success(Reindex(spread.value))
  }

  /** A finished list has exactly `n` questions numbered 1..n, each keeping
      the text, explanation, topic and option keys of the question it came
      from; a wrong count is reported as such. */
  lemma FinalizeSound(qs: seq<Question>, n: int, pool: seq<string>, draws: seq<seq<string>>)
    requires Redistribution.WellFormed(qs)
    requires Redistribution.LetterDraws(qs, draws)
    requires Redistribution.ShuffledWeighted(Alignment.AlignAll(qs), pool)
    ensures |qs| != n ==> Finalize(qs, n, pool, draws) == Failure(WrongCount(n))
    ensures var r := Finalize(qs, n, pool, draws);
      r.Success? ==> |r.value| == n && forall i :: 0 <= i < |qs| ==>
        && r.value[i].id == i + 1
        && r.value[i].text == qs[i].text
        && r.value[i].explanation == qs[i].explanation
        && r.value[i].topic == qs[i].topic
        && Keys(r.value[i].options) == Keys(qs[i].options)
        && multiset(Texts(r.value[i].options)) == multiset(Texts(qs[i].options))
  {
    var r := Finalize(qs, n, pool, draws);
    if r.Success? {
      var aligned := Alignment.AlignAll(qs);
      Alignment.AlignAllKeepsQuestions(qs);
      Redistribution.RedistributeKeepsQuestions(aligned, pool, draws);
      var spread := Redistribution.Redistribute(aligned, pool, draws).value;
      ReindexNumbers(spread);
      forall i | 0 <= i < |qs|
        ensures r.value[i].id == i + 1 && r.value[i].text == qs[i].text
        ensures r.value[i].explanation == qs[i].explanation && r.value[i].topic == qs[i].topic
        ensures Keys(r.value[i].options) == Keys(qs[i].options)
        ensures multiset(Texts(r.value[i].options)) == multiset(Texts(qs[i].options))
      {
        assert Redistribution.Reassigned(aligned[i], spread[i]);
        assert aligned[i].options == qs[i].options;
      }
    }
  }
}

=== FILE: jobs.dfy ===
/** The job records in `JOBS` and the `GET /jobs/{job_id}` response built from
    them (lines 192-209, 472-511, 542-546 and 568-611 of backend/main.py).

    A job is a Python dict whose keys depend on who wrote it, so every key is
    an `Option`. The clock is a parameter.
 */
module Jobs {
  import opened Common
  import opened Questions

  datatype Job = Job(
    status: Option<string>,
    progress: Option<int>,
    step: Option<int>,
    logs: Option<seq<string>>,
    questions: Option<seq<Question>>,
    topics: Option<seq<string>>,
    done: Option<bool>,
    startTime: Option<real>,
    error: Option<string>)

  /** Lines 542-546: the record `upload_document` stores before the background
      task starts. */
  function UploadedJob(): (j: Job)
    ensures j.status.None? && j.logs.None?
    ensures j.progress == Some(20) && j.step == Some(1)
  {
    Job(None, Some(20), Some(1), None, None, None, Some(false), None, None)
  }

  /** Lines 201-209: the record `_generate_async` starts from. */
  function StartedJob(): (j: Job)
    ensures j.status == Some("in_progress") && j.progress == Some(0) && j.step == Some(1)
    ensures j.logs == Some(["Starting question generation"])
    ensures j.questions == Some([]) && j.topics == Some([])
  {
    Job(Some("in_progress"), Some(0), Some(1), Some(["Starting question generation"]), Some([]), Some([]),
        Some(false), None, None)
  }

  /** Lines 192-196, `update_job_status`: three fields overwritten, one log
      line appended. Only called once the record has a log list. */
  function UpdateStatus(j: Job, status: string, progress: int, step: int, message: string): (r: Job)
    requires j.logs.Some?
    ensures r.status == Some(status) && r.progress == Some(progress) && r.step == Some(step)
    ensures r.logs == Some(j.logs.value + [message])
    ensures r.questions == j.questions && r.topics == j.topics && r.done == j.done
    ensures r.startTime == j.startTime && r.error == j.error
  {
    j.(status := Some(status), progress := Some(progress), step := Some(step), logs := Some(j.logs.value + [message]))
  }

  /** Line 499. */
  function StoreQuestions(j: Job, qs: seq<Question>): (r: Job)
    ensures r.questions == Some(qs)
  {
    j.(questions := Some(qs))
  }

  /** The set of `q["topic"]` values, or the `KeyError` of the first question
      without one. */
  function TopicSet(qs: seq<Question>): (r: Result<set<string>, Raised>)
    ensures r.Success? <==> forall i :: 0 <= i < |qs| ==> qs[i].topic.Some?
    ensures r.Failure? ==> r.error == KeyError("topic")
    ensures r.Success? ==> forall x :: x in r.value <==> exists i :: 0 <= i < |qs| && qs[i].topic == Some(x)
    ensures r.Success? ==> |r.value| <= |qs|
  {
    if forall i :: 0 <= i < |qs| ==> qs[i].topic.Some? then
      TopicCount(qs);
      Success(set i | 0 <= i < |qs| :: qs[i].topic.value)
    else Failure(KeyError("topic"))
  }

  /** There are no more distinct topics than questions. */
  lemma {:induction false} TopicCount(qs: seq<Question>)
    requires forall i :: 0 <= i < |qs| ==> qs[i].topic.Some?
    ensures |set i | 0 <= i < |qs| :: qs[i].topic.value| <= |qs|
    decreases |qs|
  {
    if qs != [] {
      var tail := qs[1..];
      TopicCount(tail);
      var all := set i | 0 <= i < |qs| :: qs[i].topic.value;
      var rest := set i | 0 <= i < |tail| :: tail[i].topic.value;
      forall x | x in all ensures x in rest + {qs[0].topic.value} {
        var i :| 0 <= i < |qs| && x == qs[i].topic.value;
        if i > 0 {
          assert x == tail[i - 1].topic.value;
        }
      }
      forall x | x in rest ensures x in all {
        var i :| 0 <= i < |tail| && x == tail[i].topic.value;
        assert x == qs[i + 1].topic.value;
      }
      assert qs[0].topic.value in all;
      assert all == rest + {qs[0].topic.value};
    }
  }

  /** `order` lists every element of `s` once: the order in which `list(set(...))`
      happens to enumerate it. */
  predicate Enumerates(order: seq<string>, s: set<string>) {
    && (forall x :: x in order ==> x in s)
    && (forall x :: x in s ==> x in order)
    && forall i, j :: 0 <= i < j < |order| ==> order[i] != order[j]
  }

  /** Line 500: `list(set(q["topic"] for q in generated_questions))`. */
  function StoreTopics(j: Job, qs: seq<Question>, order: seq<string>): (r: Result<Job, Raised>)
    requires TopicSet(qs).Success? ==> Enumerates(order, TopicSet(qs).value)
    ensures r.Failure? <==> exists i :: 0 <= i < |qs| && qs[i].topic.None?
    ensures r.Success? ==> r.value == j.(topics := Some(order))
    ensures r.Success? ==> forall x :: x in order <==> exists i :: 0 <= i < |qs| && qs[i].topic == Some(x)
  {
    var t := TopicSet(qs);
    if t.Failure? then Failure(t.error) else Success(j.(topics := Some(order)))
  }

  /** Lines 477-490 read `q['options'][L]` for every letter L of A-D and
      `q['topic']` of every question; a missing key raises `KeyError`. */
  predicate ExcelRows(qs: seq<Question>) {
    forall i :: 0 <= i < |qs| ==>
      qs[i].topic.Some? && forall l :: l in Letters ==> l in Keys(qs[i].options)
  }

  /** Lines 472-511: the end of a run that got its final list. With the Excel
      output (`excel`) two log lines (`saving`) frame the export, whose rows
      raise before anything is stored when a question lacks a topic or one of
      the options A-D. Then the questions are stored; a question without a
      topic raises next. Any exception marks the job as failed with one more
      log line (`failure`); otherwise three "completed" log lines follow (`done`). */
  function Finish(j: Job, qs: seq<Question>, order: seq<string>, excel: bool, saving: seq<string>, done: seq<string>, failure: string): (r: Job)
    requires j.logs.Some? && |saving| == 2 && |done| == 3
    requires TopicSet(qs).Success? ==> Enumerates(order, TopicSet(qs).value)
  {
    var exporting := if excel then UpdateStatus(j, "in_progress", 98, 4, saving[0]) else j;
    if excel && !ExcelRows(qs) then UpdateStatus(exporting, "error", 100, 1, failure)
    else
      var exported := if excel then UpdateStatus(exporting, "in_progress", 99, 4, saving[1]) else exporting;
      var stored := StoreQuestions(exported, qs);
      match StoreTopics(stored, qs, order)
      case Success(withTopics) =>
        var r1 := UpdateStatus(withTopics, "completed", 100, 4, done[0]);
        var r2 := UpdateStatus(r1, "completed", 100, 4, done[1]);
        UpdateStatus(r2, "completed", 100, 4, done[2])
      case Failure(_) => UpdateStatus(stored, "error", 100, 1, failure)
  }

  /** A finished job holds its questions unless the Excel export raised
      first. It is "completed" with the topics stored exactly when the export
      (if any) went through and every question has a topic; otherwise it is
      "error" at step 1 with the failure as its last log line. */
  lemma FinishOutcome(j: Job, qs: seq<Question>, order: seq<string>, excel: bool, saving: seq<string>, done: seq<string>, failure: string)
    requires j.logs.Some? && |saving| == 2 && |done| == 3
    requires TopicSet(qs).Success? ==> Enumerates(order, TopicSet(qs).value)
    ensures var r := Finish(j, qs, order, excel, saving, done, failure);
      var stored := !excel || ExcelRows(qs);
      && r.progress == Some(100)
      && (stored ==> r.questions == Some(qs))
      && (!stored ==> r.questions == j.questions)
      && (r.status == Some("completed") <==> stored && forall i :: 0 <= i < |qs| ==> qs[i].topic.Some?)
      && (r.status == Some("completed") ==>
            r.topics == Some(order) && r.step == Some(4)
            && r.logs == Some(j.logs.value + (if excel then saving else []) + done))
      && (r.status != Some("completed") ==>
            r.status == Some("error") && r.topics == j.topics && r.step == Some(1)
            && r.logs == Some(j.logs.value + (if excel then [saving[0]] else []) + [failure]))
  {
    var logs := j.logs.value;
    if excel {
      assert logs + [saving[0]] + [saving[1]] == logs + saving;
      assert logs + saving + [done[0]] + [done[1]] + [done[2]] == logs + saving + done;
    } else {
      assert logs + [] == logs;
      assert logs + [done[0]] + [done[1]] + [done[2]] == logs + done;
    }
  }

  /** No writer of the backend stores a start time or an error text. */
  predicate NoStartOrError(j: Job) {
    j.startTime.None? && j.error.None?
  }

  /** Every record any writer produces is free of a start time and an error text. */
  lemma WritersKeepNoStartOrError(j: Job, qs: seq<Question>, order: seq<string>, status: string, progress: int, step: int, message: string,
                                  excel: bool, saving: seq<string>, done: seq<string>)
    requires NoStartOrError(j) && j.logs.Some?
    requires TopicSet(qs).Success? ==> Enumerates(order, TopicSet(qs).value)
    ensures NoStartOrError(UploadedJob()) && NoStartOrError(StartedJob())
    ensures NoStartOrError(UpdateStatus(j, status, progress, step, message))
    ensures NoStartOrError(StoreQuestions(j, qs))
    ensures StoreTopics(j, qs, order).Success? ==> NoStartOrError(StoreTopics(j, qs, order).value)
    ensures |saving| == 2 && |done| == 3 ==> NoStartOrError(Finish(j, qs, order, excel, saving, done, message))
  {
  }

  /** The JSON object `get_job_status` returns (lines 593-605). */
  datatype Response = Response(
    status: string,
    progress: int,
    step: int,
    logs: seq<string>,
    questionsGenerated: nat,
    topicsDetected: nat,
    preview: seq<Question>,
    eta: int,
    error: Option<string>,
    questions: seq<Question>,
    topics: seq<string>)

  /** The status code of the `HTTPException` the endpoint raises. */
  const InternalError: int := 500

  /** Python's `int()` on a float: truncation toward zero. */
  function Truncate(x: real): int {
    if x >= 0.0 then x.Floor else -((-x).Floor)
  }

  /** Lines 578-590 with the clock reading `now`. */
  function Eta(j: Job, now: real): int
    requires j.status.Some? && (j.status.value == "in_progress" ==> j.progress.Some?)
  {
    if j.status.value == "in_progress" then
      var start := j.startTime.GetOr(now);
      var elapsed := now - start;
      var progress := j.progress.value as real / 100.0;
      if progress > 0.0 then
        var total := elapsed / progress;
        Truncate(total * (1.0 - progress))
      else 0
    else 0
  }

  /** Without a stored start time the elapsed time is zero, so the estimate
      is always zero. */
  lemma EtaWithoutStartIsZero(j: Job, now: real)
    requires j.status.Some? && (j.status.value == "in_progress" ==> j.progress.Some?)
    requires j.startTime.None?
    ensures Eta(j, now) == 0
  {
    if j.status.value == "in_progress" && j.progress.value as real / 100.0 > 0.0 {
      var progress := j.progress.value as real / 100.0;
      assert (now - now) / progress == 0.0;
    }
  }

  /** The keys the endpoint reads with `job[...]`, which raise `KeyError` when absent. */
  predicate Readable(j: Job) {
    j.status.Some? && j.progress.Some? && j.step.Some? && j.logs.Some?
  }

  /** Lines 568-611. Every exception inside the handler, the 404 for an
      unknown id included, is turned into a 500. */
  function GetJobStatus(jobs: map<string, Job>, id: string, now: real): (r: Result<Response, int>)
    ensures r.Failure? <==> id !in jobs || !Readable(jobs[id])
    ensures r.Failure? ==> r.error == InternalError
    ensures r.Success? ==> var j := jobs[id]; var qs := j.questions.GetOr([]);
      && r.value.status == j.status.value
      && r.value.questions == qs
      && r.value.questionsGenerated == |qs|
      && r.value.topicsDetected == |j.topics.GetOr([])|
      && |r.value.preview| == (if |qs| < 3 then |qs| else 3)
      && r.value.preview <= qs
      && (r.value.status != "error" ==> r.value.error.None?)
  {
    if id !in jobs then Failure(InternalError)
    else
      var j := jobs[id];
      if !Readable(j) then Failure(InternalError)
      else
        var qs := j.questions.GetOr([]);
        var topics := j.topics.GetOr([]);
        Success(Response(
          j.status.value, j.progress.value, j.step.value, j.logs.value,
          |qs|, |topics|, if |qs| < 3 then qs else qs[..3],
          Eta(j, now),
          if j.status.value == "error" then j.error else None,
          qs, topics))
  }

  /** A job polled between the upload and the start of the background task has
      no "status" key, so the endpoint answers 500. */
  lemma UploadedJobIsUnreadable(jobs: map<string, Job>, id: string, now: real)
    requires id in jobs && jobs[id] == UploadedJob()
    ensures GetJobStatus(jobs, id, now) == Failure(InternalError)
  {
  }

  /** For the records the backend writes, the response never carries an error
      text and its estimate is always zero. */
  lemma ResponseOfBackendJob(jobs: map<string, Job>, id: string, now: real)
    requires id in jobs && NoStartOrError(jobs[id])
    ensures var r := GetJobStatus(jobs, id, now);
      r.Success? ==> r.value.error.None? && r.value.eta == 0
  {
    if Readable(jobs[id]) {
      EtaWithoutStartIsZero(jobs[id], now);
    }
  }
}

=== FILE: questions.dfy ===
/** The question record the backend builds from the model's JSON reply, and
    the ordered option dictionary inside it.

    A Python `dict` keeps its keys distinct and iterates them in insertion
    order, so `options` is an association list of (key, text) pairs; the
    order matters because answer alignment picks the FIRST matching option.
 */
module Questions {
  import opened Common

  /** `q['options']`: (key, text) pairs in insertion order, e.g. ("A", "Paris"). */
  type OptionList = seq<(string, string)>

  /** One generated multiple-choice question. `topic` is not checked by the
      validation filter, so it may be missing. */
  datatype Question = Question(
    id: int,
    text: string,
    options: OptionList,
    correctAnswer: string,
    explanation: string,
    topic: Option<string>)

  /** The option letters A-D, in order: `all_answers` and the keys of
      `answer_counts` (lines 395-403), the class `[ABCD]` of line 378 and the
      option columns of the Excel rows. */
  const Letters: seq<string> := ["A", "B", "C", "D"]

  function Keys(opts: OptionList): seq<string> {
    seq(|opts|, i requires 0 <= i < |opts| => opts[i].0)
  }

  function Texts(opts: OptionList): seq<string> {
    seq(|opts|, i requires 0 <= i < |opts| => opts[i].1)
  }

  /** What every Python dictionary satisfies: no key occurs twice. */
  predicate DistinctKeys(opts: OptionList) {
    forall i, j :: 0 <= i < j < |opts| ==> opts[i].0 != opts[j].0
  }

  /** The position of key `k`. */
  function IndexOf(opts: OptionList, k: string): (i: nat)
    requires k in Keys(opts)
    ensures i < |opts| && opts[i].0 == k
    ensures forall j :: 0 <= j < i ==> opts[j].0 != k
  {
    if opts[0].0 == k then 0
    else
      assert Keys(opts) == [opts[0].0] + Keys(opts[1..]);
      1 + IndexOf(opts[1..], k)
  }

  /** `options.get(k)`. */
  function Lookup(opts: OptionList, k: string): Option<string> {
    if k in Keys(opts) then Some(opts[IndexOf(opts, k)].1) else None
  }

  /** With distinct keys, looking up the key at position `i` finds the text there. */
  lemma LookupAt(opts: OptionList, i: nat)
    requires DistinctKeys(opts)
    requires i < |opts|
    ensures Lookup(opts, opts[i].0) == Some(opts[i].1)
  {
    assert Keys(opts)[i] == opts[i].0;
  }

  /** The three assignments through a temporary that exchange the texts under
      keys `a` and `b` (lines 434-436 and 454-456 of the source). Both keys must
      be present; the source raises `KeyError` otherwise, and its callers check. */
  function Swap(opts: OptionList, a: string, b: string): (r: OptionList)
    requires a in Keys(opts) && b in Keys(opts)
    ensures Keys(r) == Keys(opts)
  {
    var ta := Lookup(opts, a).value;
    var tb := Lookup(opts, b).value;
    seq(|opts|, i requires 0 <= i < |opts| =>
      if opts[i].0 == a then (a, tb)
      else if opts[i].0 == b then (b, ta)
      else opts[i])
  }

  /** After a swap the key `b` holds the text `a` held and vice versa; every
      other key keeps its text. */
  lemma SwapLookup(opts: OptionList, a: string, b: string, k: string)
    requires DistinctKeys(opts)
    requires a in Keys(opts) && b in Keys(opts)
    ensures Lookup(Swap(opts, a, b), b) == Lookup(opts, a)
    ensures Lookup(Swap(opts, a, b), a) == Lookup(opts, b)
    ensures k != a && k != b ==> Lookup(Swap(opts, a, b), k) == Lookup(opts, k)
  {
    var r := Swap(opts, a, b);
    var ia := IndexOf(opts, a);
    var ib := IndexOf(opts, b);
    assert Keys(r) == Keys(opts);
    assert DistinctKeys(r) by {
      forall i, j | 0 <= i < j < |r| ensures r[i].0 != r[j].0 {
        assert Keys(r)[i] == Keys(opts)[i] && Keys(r)[j] == Keys(opts)[j];
      }
    }
    LookupAt(r, ia);
    LookupAt(r, ib);
    if k in Keys(opts) {
      var ik := IndexOf(opts, k);
      LookupAt(r, ik);
      LookupAt(opts, ik);
    }
  }

  /** A swap keeps the keys distinct and only exchanges two texts: the
      multiset of option texts is unchanged. */
  lemma SwapPermutesTexts(opts: OptionList, a: string, b: string)
    requires DistinctKeys(opts)
    requires a in Keys(opts) && b in Keys(opts)
    ensures DistinctKeys(Swap(opts, a, b))
    ensures multiset(Texts(Swap(opts, a, b))) == multiset(Texts(opts))
  {
    var r := Swap(opts, a, b);
    assert Keys(r) == Keys(opts);
    forall i, j | 0 <= i < j < |r| ensures r[i].0 != r[j].0 {
      assert Keys(r)[i] == Keys(opts)[i] && Keys(r)[j] == Keys(opts)[j];
    }
    var ia := IndexOf(opts, a);
    var ib := IndexOf(opts, b);
    var t := Texts(opts);
    if a == b {
      assert Texts(r) == t;
    } else {
      assert Texts(r) == t[ia := t[ib]][ib := t[ia]];
      assert multiset(t[ia := t[ib]]) == multiset(t) - multiset{t[ia]} + multiset{t[ib]};
    }
  }

  /** Swapping the same two keys twice restores the options. */
  lemma SwapTwice(opts: OptionList, a: string, b: string)
    requires DistinctKeys(opts)
    requires a in Keys(opts) && b in Keys(opts)
    ensures Swap(Swap(opts, a, b), a, b) == opts
  {
    var r := Swap(opts, a, b);
    SwapLookup(opts, a, b, a);
    var rr := Swap(r, a, b);
    forall i | 0 <= i < |opts| ensures rr[i] == opts[i] {
      LookupAt(opts, i);
    }
  }
}

=== FILE: redistribution.dfy ===
/** Answer redistribution (lines 389-464 of backend/main.py): when one letter
    is the correct answer of more than 30% of the questions, correct answers
    are moved to other letters by swapping option texts, drawing letters first
    from a shuffled pool that favours rare letters and then at random.

    The shuffle and `random.choice` are parameters: `pool` is any ordering of
    the weighted list, and `draws[i]` are the five letters `random.choice`
    would return for question `i` should it get that far.
 */
module Redistribution {
  import opened Common
  import opened Questions

  /** `max_attempts`. */
  const MaxAttempts: nat := 5

  function Answers(qs: seq<Question>): (a: seq<string>)
    ensures |a| == |qs| && forall i :: 0 <= i < |qs| ==> a[i] == qs[i].correctAnswer
  {
    seq(|qs|, i requires 0 <= i < |qs| => qs[i].correctAnswer)
  }

  /** The position of a letter in `Letters`. */
  function LetterIndex(l: string): (k: nat)
    requires l in Letters
    ensures k < 4 && Letters[k] == l
  {
    if l == "A" then 0 else if l == "B" then 1 else if l == "C" then 2 else 3
  }

  /** Lines 395-397: `answer_counts[answer] += 1` for each answer in order; an
      answer outside A-D raises `KeyError` at the first such answer. */
  function Tally(answers: seq<string>): (r: Result<seq<nat>, Raised>)
    ensures r.Success? <==> forall i :: 0 <= i < |answers| ==> answers[i] in Letters
    ensures r.Failure? ==> exists i :: (0 <= i < |answers| && answers[i] !in Letters
      && r.error == KeyError(answers[i]) && forall j :: 0 <= j < i ==> answers[j] in Letters)
    ensures r.Success? ==> |r.value| == 4 && forall k :: 0 <= k < 4 ==> r.value[k] == multiset(answers)[Letters[k]]
  {
    assert answers[..0] == [];
    TallyFrom(answers, 0, [0, 0, 0, 0])
  }

  /** The tally loop after `k` answers, with the counts `acc` so far. */
  function TallyFrom(answers: seq<string>, k: nat, acc: seq<nat>): (r: Result<seq<nat>, Raised>)
    requires k <= |answers| && |acc| == 4
    requires forall j :: 0 <= j < k ==> answers[j] in Letters
    requires forall l :: 0 <= l < 4 ==> acc[l] == multiset(answers[..k])[Letters[l]]
    ensures r.Success? <==> forall i :: k <= i < |answers| ==> answers[i] in Letters
    ensures r.Failure? ==> exists i :: (k <= i < |answers| && answers[i] !in Letters
      && r.error == KeyError(answers[i]) && forall j :: 0 <= j < i ==> answers[j] in Letters)
    ensures r.Success? ==> |r.value| == 4 && forall l :: 0 <= l < 4 ==> r.value[l] == multiset(answers)[Letters[l]]
    decreases |answers| - k
  {
    if k == |answers| then
      assert answers[..k] == answers;
      Success(acc)
    else if answers[k] !in Letters then Failure(KeyError(answers[k]))
    else
      var x := LetterIndex(answers[k]);
      TallyStep(answers, k, acc);
      TallyFrom(answers, k + 1, acc[x := acc[x] + 1])
  }

  /** Counting one more answer keeps the counts equal to those of the prefix. */
  lemma TallyStep(answers: seq<string>, k: nat, acc: seq<nat>)
    requires k < |answers| && |acc| == 4 && answers[k] in Letters
    requires forall l :: 0 <= l < 4 ==> acc[l] == multiset(answers[..k])[Letters[l]]
    ensures var x := LetterIndex(answers[k]);
      forall l :: 0 <= l < 4 ==> acc[x := acc[x] + 1][l] == multiset(answers[..k + 1])[Letters[l]]
  {
    assert answers[..k + 1] == answers[..k] + [answers[k]];
    assert Letters[0] != Letters[1] && Letters[0] != Letters[2] && Letters[0] != Letters[3];
    assert Letters[1] != Letters[2] && Letters[1] != Letters[3] && Letters[2] != Letters[3];
  }

  /** `max(answer_counts.values())`. */
  function MaxCount(counts: seq<nat>): (m: nat)
    requires |counts| == 4
    ensures forall k :: 0 <= k < 4 ==> counts[k] <= m
    ensures exists k :: 0 <= k < 4 && counts[k] == m
  {
    var ab := if counts[0] >= counts[1] then counts[0] else counts[1];
    var cd := if counts[2] >= counts[3] then counts[2] else counts[3];
    if ab >= cd then ab else cd
  }

  /** Line 401: `max_count > len(generated_questions) * 0.3`, decided on
      integers. */
  predicate Overrepresented(counts: seq<nat>, n: nat)
    requires |counts| == 4
  {
    10 * MaxCount(counts) > 3 * n
  }

  /** The trigger fires exactly when some letter answers more than 30% of the
      questions. */
  lemma OverrepresentedIffSomeLetter(counts: seq<nat>, n: nat)
    requires |counts| == 4
    ensures Overrepresented(counts, n) <==> exists k :: 0 <= k < 4 && 10 * counts[k] > 3 * n
  {
  }

  /** `[answer] * count`, empty for a negative count. */
  function Repeat(x: string, count: int): (r: seq<string>)
    ensures |r| == if count < 0 then 0 else count
    ensures multiset(r)[x] == |r|
    ensures forall y :: y != x ==> multiset(r)[y] == 0
    decreases count
  {
    if count <= 0 then [] else [x] + Repeat(x, count - 1)
  }

  /** Lines 406-409: each letter `4 - count` times, in the order A, B, C, D. */
  function Weighted(counts: seq<nat>): seq<string>
    requires |counts| == 4
  {
    Repeat("A", 4 as int - counts[0]) + Repeat("B", 4 as int - counts[1])
      + Repeat("C", 4 as int - counts[2]) + Repeat("D", 4 as int - counts[3])
  }

  /** The four runs of the weighted list, as multisets. */
  lemma WeightedSplit(counts: seq<nat>, x: string)
    requires |counts| == 4
    ensures multiset(Weighted(counts))[x] == multiset(Repeat("A", 4 as int - counts[0]))[x]
      + multiset(Repeat("B", 4 as int - counts[1]))[x] + multiset(Repeat("C", 4 as int - counts[2]))[x]
      + multiset(Repeat("D", 4 as int - counts[3]))[x]
  {
    var a := Repeat("A", 4 as int - counts[0]);
    var b := Repeat("B", 4 as int - counts[1]);
    var c := Repeat("C", 4 as int - counts[2]);
    var d := Repeat("D", 4 as int - counts[3]);
    assert multiset(a + b + c + d) == multiset(a) + multiset(b) + multiset(c) + multiset(d);
  }

  /** Letter number `k` occurs `4 - count` times in the weighted list, and not
      at all once it was used four times or more. */
  lemma WeightedCount(counts: seq<nat>, k: nat)
    requires |counts| == 4 && k < 4
    ensures multiset(Weighted(counts))[Letters[k]] == if counts[k] >= 4 then 0 else 4 - counts[k]
  {
    var x := Letters[k];
    WeightedSplit(counts, x);
    assert "A"[0] == 'A' && "B"[0] == 'B' && "C"[0] == 'C' && "D"[0] == 'D';
    if k == 0 {
      assert x != "B" && x != "C" && x != "D";
    } else if k == 1 {
      assert x != "A" && x != "C" && x != "D";
    } else if k == 2 {
      assert x != "A" && x != "B" && x != "D";
    } else {
      assert x != "A" && x != "B" && x != "C";
    }
  }

  /** The weighted list holds only letters. */
  lemma WeightedLetters(counts: seq<nat>)
    requires |counts| == 4
    ensures forall x :: x in Weighted(counts) ==> x in Letters
  {
    forall x | x in Weighted(counts) ensures x in Letters {
      WeightedSplit(counts, x);
    }
  }

  /** `pool` is what `random.shuffle` may leave of the weighted list, whenever
      the tally gets that far. */
  predicate ShuffledWeighted(qs: seq<Question>, pool: seq<string>) {
    var t := Tally(Answers(qs));
    t.Success? ==> multiset(pool) == multiset(Weighted(t.value))
  }

  /** `new_answer != current_answer and new_answer in options`. */
  predicate Valid(x: string, q: Question) {
    x != q.correctAnswer && x in Keys(q.options)
  }

  /** What the weighted-list loop of lines 425-445 leaves behind: the last
      value of `new_answer`, whether it was valid, and how many letters were popped. */
  datatype PoolOutcome = PoolOutcome(last: string, hit: bool, used: nat)

  /** Lines 425-445 for one question: pop letters from the front of the pool,
      at most `MaxAttempts` of them, until one is valid. `k` letters have been
      popped so far and `last` is the value of `new_answer`. */
  function PoolDraw(pool: seq<string>, q: Question, k: nat, last: string): (r: PoolOutcome)
    requires k <= |pool| && k <= MaxAttempts
    requires forall j :: 0 <= j < k ==> !Valid(pool[j], q)
    ensures k <= r.used <= |pool| && r.used <= MaxAttempts
    ensures r.hit <==> exists j :: 0 <= j < |pool| && j < MaxAttempts && Valid(pool[j], q)
    ensures r.hit ==> 0 < r.used && r.last == pool[r.used - 1] && Valid(r.last, q)
    ensures r.hit ==> forall j :: 0 <= j < r.used - 1 ==> !Valid(pool[j], q)
    ensures !r.hit ==> if r.used == k then r.last == last else r.last == pool[r.used - 1]
    decreases MaxAttempts - k
  {
    if k == MaxAttempts || k == |pool| then PoolOutcome(last, false, k)
    else if Valid(pool[k], q) then PoolOutcome(pool[k], true, k + 1)
    else PoolDraw(pool, q, k + 1, pool[k])
  }

  /** Lines 447-459: the first of the random draws that is valid. */
  function Fallback(draws: seq<string>, q: Question): (m: Option<string>)
    ensures m.None? <==> forall j :: 0 <= j < |draws| ==> !Valid(draws[j], q)
    ensures m.Some? ==> exists j :: (0 <= j < |draws| && draws[j] == m.value && Valid(draws[j], q)
      && forall i :: 0 <= i < j ==> !Valid(draws[i], q))
    ensures m.Some? ==> m.value in draws && Valid(m.value, q)
  {
    FallbackFrom(draws, q, 0)
  }

  /** The draws from position `k` on, the earlier ones known to be invalid. */
  function FallbackFrom(draws: seq<string>, q: Question, k: nat): (m: Option<string>)
    requires k <= |draws|
    requires forall i :: 0 <= i < k ==> !Valid(draws[i], q)
    ensures m.None? <==> forall j :: 0 <= j < |draws| ==> !Valid(draws[j], q)
    ensures m.Some? ==> exists j :: (k <= j < |draws| && draws[j] == m.value && Valid(draws[j], q)
      && forall i :: 0 <= i < j ==> !Valid(draws[i], q))
    decreases |draws| - k
  {
    if k == |draws| then None
    else if Valid(draws[k], q) then Some(draws[k])
    else FallbackFrom(draws, q, k + 1)
  }

  /** Lines 434-438 or 454-458: swap the texts under the current and the new
      letter and make the new letter the answer. `options[current_answer]`
      raises `KeyError` when the current answer is not an option key. */
  function MoveAnswer(q: Question, x: string): (r: Result<Question, Raised>)
    requires x in Keys(q.options)
    ensures r.Failure? <==> q.correctAnswer !in Keys(q.options)
    ensures r.Failure? ==> r.error == KeyError(q.correctAnswer)
    ensures r.Success? ==> r.value.correctAnswer == x
  {
    if q.correctAnswer !in Keys(q.options) then Failure(KeyError(q.correctAnswer))
    else Success(q.(options := Swap(q.options, q.correctAnswer, x), correctAnswer := x))
  }

  /** The letter question `q` moves to, if any, and what is left of the pool. */
  function Target(q: Question, pool: seq<string>, draws: seq<string>): (Option<string>, seq<string>) {
    var po := PoolDraw(pool, q, 0, q.correctAnswer);
    var rest := pool[po.used..];
    if po.hit then (Some(po.last), rest)
    else if po.last == q.correctAnswer then (Fallback(draws, q), rest)
    else (None, rest)
  }

  /** One pass of the loop body of lines 414-463: the question afterwards, or
      the `KeyError` of the swap, and what is left of the pool. */
  function RedistributeOne(q: Question, pool: seq<string>, draws: seq<string>): (Result<Question, Raised>, seq<string>) {
    var (target, rest) := Target(q, pool, draws);
    if target.None? then (Success(q), rest)
    else (MoveAnswer(q, target.value), rest)
  }

  /** `r` is `q` with possibly another correct answer: the same id, text,
      explanation and topic, the same option keys and the same option texts
      in another arrangement, and the text of the correct answer is the same. */
  predicate Reassigned(q: Question, r: Question) {
    && r.id == q.id && r.text == q.text && r.explanation == q.explanation && r.topic == q.topic
    && Keys(r.options) == Keys(q.options)
    && DistinctKeys(r.options)
    && multiset(Texts(r.options)) == multiset(Texts(q.options))
    && Lookup(r.options, r.correctAnswer) == Lookup(q.options, q.correctAnswer)
    && (r.correctAnswer == q.correctAnswer ==> r.options == q.options)
    && (r.correctAnswer != q.correctAnswer ==> r.correctAnswer in Keys(q.options) && q.correctAnswer in Keys(q.options))
  }

  /** The new answer of a question is its old one, a letter of the pool or one
      of its random draws. */
  predicate DrawnFrom(q: Question, r: Question, pool: seq<string>, draws: seq<string>) {
    r.correctAnswer == q.correctAnswer || r.correctAnswer in pool || r.correctAnswer in draws
  }

  /** One pass keeps the question intact but for the answer and the
      arrangement of the texts, fails only on an answer that is no key, and
      leaves a suffix of the pool. */
  lemma RedistributeOneSound(q: Question, pool: seq<string>, draws: seq<string>)
    requires DistinctKeys(q.options)
    ensures var (res, rest) := RedistributeOne(q, pool, draws);
      && (res.Success? ==> Reassigned(q, res.value) && DrawnFrom(q, res.value, pool, draws))
      && (res.Failure? ==> q.correctAnswer !in Keys(q.options))
      && (forall x :: x in rest ==> x in pool)
  {
    var (target, rest) := Target(q, pool, draws);
    if target.Some? && q.correctAnswer in Keys(q.options) {
      var x := target.value;
      SwapLookup(q.options, q.correctAnswer, x, x);
      SwapPermutesTexts(q.options, q.correctAnswer, x);
    }
  }

  /** The loop of lines 414-463 over all questions; the pool is shared, and the
      first `KeyError` ends everything. */
  function RedistributeAll(qs: seq<Question>, pool: seq<string>, draws: seq<seq<string>>): (r: Result<seq<Question>, Raised>)
    requires |draws| == |qs|
    requires forall i :: 0 <= i < |qs| ==> DistinctKeys(qs[i].options)
    ensures r.Success? ==> |r.value| == |qs|
    ensures r.Failure? ==> exists i :: 0 <= i < |qs| && qs[i].correctAnswer !in Keys(qs[i].options)
  {
    if qs == [] then Success([])
    else
      var (first, rest) := RedistributeOne(qs[0], pool, draws[0]);
      RedistributeOneSound(qs[0], pool, draws[0]);
      if first.Failure? then Failure(first.error)
      else
        var tail := RedistributeAll(qs[1..], rest, draws[1..]);
        if tail.Failure? then
          assert forall i :: 1 <= i < |qs| ==> qs[i] == qs[1..][i - 1];
          Failure(tail.error)
        else Success([first.value] + tail.value)
  }

  /** Every question comes out of the loop reassigned, with an answer drawn
      from its old one, the pool or its random draws. */
  lemma {:induction false} RedistributeAllSound(qs: seq<Question>, pool: seq<string>, draws: seq<seq<string>>)
    requires |draws| == |qs|
    requires forall i :: 0 <= i < |qs| ==> DistinctKeys(qs[i].options)
    ensures var r := RedistributeAll(qs, pool, draws);
      r.Success? ==> forall i :: 0 <= i < |qs| ==> Reassigned(qs[i], r.value[i]) && DrawnFrom(qs[i], r.value[i], pool, draws[i])
    decreases |qs|
  {
    if qs != [] {
      var (first, rest) := RedistributeOne(qs[0], pool, draws[0]);
      RedistributeOneSound(qs[0], pool, draws[0]);
      if first.Success? {
        var tail := RedistributeAll(qs[1..], rest, draws[1..]);
        RedistributeAllSound(qs[1..], rest, draws[1..]);
        if tail.Success? {
          var rs := [first.value] + tail.value;
          assert RedistributeAll(qs, pool, draws) == Success(rs);
          forall i | 1 <= i < |qs|
            ensures Reassigned(qs[i], rs[i]) && DrawnFrom(qs[i], rs[i], pool, draws[i])
          {
            assert qs[i] == qs[1..][i - 1] && rs[i] == tail.value[i - 1] && draws[i] == draws[1..][i - 1];
          }
        }
      }
    }
  }

  /** Every letter of a shuffled weighted list is a letter. */
  lemma PoolIsLetters(qs: seq<Question>, pool: seq<string>)
    requires ShuffledWeighted(qs, pool)
    requires Tally(Answers(qs)).Success?
    ensures forall x :: x in pool ==> x in Letters
  {
    var w := Weighted(Tally(Answers(qs)).value);
    WeightedLetters(Tally(Answers(qs)).value);
    forall x | x in pool ensures x in Letters {
      assert multiset(pool)[x] > 0;
      assert x in multiset(w);
    }
  }

  /** What the source may receive from `random.choice(all_answers)`: five
      letters per question. */
  predicate LetterDraws(qs: seq<Question>, draws: seq<seq<string>>) {
    |draws| == |qs| && forall i :: 0 <= i < |qs| ==> |draws[i]| == MaxAttempts && forall x :: x in draws[i] ==> x in Letters
  }

  /** Option dictionaries have distinct keys. */
  predicate WellFormed(qs: seq<Question>) {
    forall i :: 0 <= i < |qs| ==> DistinctKeys(qs[i].options)
  }

  /** Lines 389-463 as a whole. A single question and a balanced tally leave
      the list as it is; an answer outside A-D makes the tally raise. */
  function Redistribute(qs: seq<Question>, pool: seq<string>, draws: seq<seq<string>>): (r: Result<seq<Question>, Raised>)
    requires WellFormed(qs) && LetterDraws(qs, draws) && ShuffledWeighted(qs, pool)
    ensures |qs| <= 1 ==> r == Success(qs)
    ensures |qs| > 1 && Tally(Answers(qs)).Success? && !Overrepresented(Tally(Answers(qs)).value, |qs|) ==> r == Success(qs)
    ensures r.Success? ==> |r.value| == |qs|
  {
    if |qs| <= 1 then Success(qs)
    else
      var t := Tally(Answers(qs));
      if t.Failure? then Failure(t.error)
      else if !Overrepresented(t.value, |qs|) then Success(qs)
      else RedistributeAll(qs, pool, draws)
  }

  /** Redistribution only rearranges: every question keeps its id, text,
      explanation, topic and option keys, its option texts are permuted, and
      the text its correct answer points at is the same as before. */
  lemma RedistributeKeepsQuestions(qs: seq<Question>, pool: seq<string>, draws: seq<seq<string>>)
    requires WellFormed(qs) && LetterDraws(qs, draws) && ShuffledWeighted(qs, pool)
    ensures var r := Redistribute(qs, pool, draws);
      r.Success? ==> forall i :: 0 <= i < |qs| ==> Reassigned(qs[i], r.value[i])
  {
    var r := Redistribute(qs, pool, draws);
    if r == Success(qs) {
      forall i | 0 <= i < |qs| ensures Reassigned(qs[i], qs[i]) {
        if qs[i].correctAnswer in Keys(qs[i].options) {
          LookupAt(qs[i].options, IndexOf(qs[i].options, qs[i].correctAnswer));
        }
      }
    } else {
      RedistributeAllSound(qs, pool, draws);
    }
  }

  /** With more than one question, every answer outside A-D makes the job fail
      with the `KeyError` of the first one; the only other failure is an
      answer that is not an option key. */
  lemma RedistributeFailures(qs: seq<Question>, pool: seq<string>, draws: seq<seq<string>>)
    requires WellFormed(qs) && LetterDraws(qs, draws) && ShuffledWeighted(qs, pool)
    ensures var r := Redistribute(qs, pool, draws);
      r.Failure? ==> exists i :: 0 <= i < |qs| && (qs[i].correctAnswer !in Letters || qs[i].correctAnswer !in Keys(qs[i].options))
    ensures |qs| > 1 && (exists i :: 0 <= i < |qs| && qs[i].correctAnswer !in Letters) ==>
      Redistribute(qs, pool, draws).Failure?
  {
    var answers := Answers(qs);
    if |qs| > 1 && Tally(answers).Failure? {
      var i :| 0 <= i < |answers| && answers[i] !in Letters;
    }
  }

  /** After a redistribution of several questions every answer is one of A-D. */
  lemma RedistributeAnswersAreLetters(qs: seq<Question>, pool: seq<string>, draws: seq<seq<string>>)
    requires WellFormed(qs) && LetterDraws(qs, draws) && ShuffledWeighted(qs, pool)
    ensures var r := Redistribute(qs, pool, draws);
      |qs| > 1 && r.Success? ==> forall i :: 0 <= i < |qs| ==> r.value[i].correctAnswer in Letters
  {
    var r := Redistribute(qs, pool, draws);
    if |qs| > 1 && r.Success? {
      var answers := Answers(qs);
      assert Tally(answers).Success?;
      if r != Success(qs) {
        PoolIsLetters(qs, pool);
        RedistributeAllSound(qs, pool, draws);
      }
    }
  }
}

=== FILE: strings.dfy ===
/** The Python string operations the post-processing relies on:
    `str.split('\n\n')` and `'\n\n'.join(...)` for paragraphs, `str.split()` for
    words, `str.lower()` and the substring test `a in b`.
 */
module Strings {

  /** The separator `_split_text` splits paragraphs on and joins them with. */
  const ParagraphBreak: string := "\n\n"

  /** The characters `str.isspace()` accepts, which `str.split()` without an
      argument treats as word separators. */
  predicate IsSpace(c: char) {
    || c == ' '
    || '\t' <= c <= '\r'
    || '\U{1c}' <= c <= '\U{1f}'
    || c == '\U{85}' || c == '\U{a0}' || c == '\U{1680}'
    || '\U{2000}' <= c <= '\U{200a}'
    || c == '\U{2028}' || c == '\U{2029}' || c == '\U{202f}' || c == '\U{205f}' || c == '\U{3000}'
  }

  predicate IsUpper(c: char) {
    'A' <= c <= 'Z'
  }

  /** `str.lower()` restricted to the ASCII letters. */
  function LowerChar(c: char): char {
    if IsUpper(c) then (c as int + 32) as char else c
  }

  function Lower(s: string): string {
    seq(|s|, i requires 0 <= i < |s| => LowerChar(s[i]))
  }

  /** A lowered string holds no upper-case letter, and lowering it again changes nothing. */
  lemma LowerIsLower(s: string)
    ensures forall i :: 0 <= i < |Lower(s)| ==> !IsUpper(Lower(s)[i])
    ensures Lower(Lower(s)) == Lower(s)
  {
  }

  /** `sub` occurs in `s` starting at position `i`. */
  predicate OccursAt(s: string, sub: string, i: int) {
    0 <= i <= |s| - |sub| && s[i..i + |sub|] == sub
  }

  /** Python's `sub in s`: `sub` occurs at some position of `s`. */
  predicate Contains(s: string, sub: string) {
    exists i | 0 <= i <= |s| - |sub| :: OccursAt(s, sub, i)
  }

  // ---------------------------------------------------------------------------
  // Paragraphs: text.split('\n\n') and '\n\n'.join(parts)
  // ---------------------------------------------------------------------------

  /** `s.split('\n\n')`: the occurrences of the break are found from the left
      and do not overlap; there is always at least one part. */
  function SplitParagraphs(s: string): (parts: seq<string>)
    ensures |parts| >= 1
    decreases |s|
  {
    if |s| < 2 then [s]
    else if s[..2] == ParagraphBreak then [""] + SplitParagraphs(s[2..])
    else
      var rest := SplitParagraphs(s[1..]);
      [[s[0]] + rest[0]] + rest[1..]
  }

  /** `'\n\n'.join(parts)`. */
  function JoinParagraphs(parts: seq<string>): string {
    if |parts| == 0 then ""
    else if |parts| == 1 then parts[0]
    else parts[0] + ParagraphBreak + JoinParagraphs(parts[1..])
  }

  /** Joining the parts of a split gives back the text. */
  lemma {:induction false} JoinSplitParagraphs(s: string)
    ensures JoinParagraphs(SplitParagraphs(s)) == s
    decreases |s|
  {
    if |s| < 2 {
    } else if s[..2] == ParagraphBreak {
      JoinSplitParagraphs(s[2..]);
      var rest := SplitParagraphs(s[2..]);
      assert ([""] + rest)[1..] == rest;
      assert s == ParagraphBreak + s[2..];
    } else {
      JoinSplitParagraphs(s[1..]);
      var rest := SplitParagraphs(s[1..]);
      assert rest == [rest[0]] + rest[1..];
      JoinExtendFirst(s[0], rest[0], rest[1..]);
      assert s == [s[0]] + s[1..];
    }
  }

  /** Joining a first part with the parts after it. */
  lemma JoinFront(first: string, rest: seq<string>)
    ensures JoinParagraphs([first] + rest) == if rest == [] then first else first + ParagraphBreak + JoinParagraphs(rest)
  {
    assert ([first] + rest)[1..] == rest;
  }

  /** Extending the first part by a character extends the joined text by it. */
  lemma JoinExtendFirst(c: char, first: string, rest: seq<string>)
    ensures JoinParagraphs([[c] + first] + rest) == [c] + JoinParagraphs([first] + rest)
  {
    JoinFront([c] + first, rest);
    JoinFront(first, rest);
    if rest != [] {
      var tail := ParagraphBreak + JoinParagraphs(rest);
      assert ([c] + first) + tail == [c] + (first + tail);
    }
  }

  /** No part of a split contains the break it was split on. */
  lemma {:induction false} SplitParagraphsHaveNoBreak(s: string)
    ensures forall k :: 0 <= k < |SplitParagraphs(s)| ==> !Contains(SplitParagraphs(s)[k], ParagraphBreak)
    decreases |s|
  {
    var parts := SplitParagraphs(s);
    if |s| < 2 {
      assert parts == [s];
      assert |ParagraphBreak| == 2;
    } else if s[..2] == ParagraphBreak {
      SplitParagraphsHaveNoBreak(s[2..]);
      var rest := SplitParagraphs(s[2..]);
      assert parts == [""] + rest;
      assert !Contains("", ParagraphBreak);
    } else {
      SplitParagraphsHaveNoBreak(s[1..]);
      JoinSplitParagraphs(s[1..]);
      var rest := SplitParagraphs(s[1..]);
      FirstPartIsPrefix(rest);
      assert rest[0] == [] || rest[0][0] == s[1];
      ConsNoBreak(s[0], rest[0]);
      assert parts == [[s[0]] + rest[0]] + rest[1..];
    }
  }

  /** The split is taken from the left: the first part runs up to the first
      break, and the other parts are the split of the text after that break.
      Together with the round trip this fixes every part. */
  lemma {:induction false} SplitParagraphsLeftmost(s: string)
    ensures Leftmost(s, SplitParagraphs(s))
    decreases |s|
  {
    if |s| < 2 {
      assert SplitParagraphs(s) == [s];
    } else if s[..2] == ParagraphBreak {
      assert SplitParagraphs(s) == [""] + SplitParagraphs(s[2..]);
      assert OccursAt(s, ParagraphBreak, 0);
    } else {
      SplitParagraphsLeftmost(s[1..]);
      LeftmostCons(s, SplitParagraphs(s[1..]));
    }
  }

  /** `parts[0]` ends at the first break of `s`, and `parts[1..]` splits what
      follows it. */
  ghost predicate Leftmost(s: string, parts: seq<string>)
    requires |parts| >= 1
  {
    && parts[0] <= s
    && (forall i :: 0 <= i < |parts[0]| ==> !OccursAt(s, ParagraphBreak, i))
    && (|parts| == 1 <==> parts[0] == s)
    && (|parts| > 1 ==> (OccursAt(s, ParagraphBreak, |parts[0]|)
         && parts[1..] == SplitParagraphs(s[|parts[0]| + 2..])))
  }

  /** The step of the split for a text that does not start with a break. */
  lemma LeftmostCons(s: string, rest: seq<string>)
    requires |s| >= 2 && s[..2] != ParagraphBreak
    requires rest == SplitParagraphs(s[1..]) && Leftmost(s[1..], rest)
    ensures Leftmost(s, SplitParagraphs(s))
  {
    var t := s[1..];
    var first := [s[0]] + rest[0];
    var parts := SplitParagraphs(s);
    assert parts == [first] + rest[1..];
    assert parts[0] == first && parts[1..] == rest[1..] && |parts| == |rest|;
    ConsPrefix(s, rest[0]);
    LeftmostConsNoBreak(s, rest[0]);
    LeftmostConsTail(s, rest);
  }

  /** Putting the first character of `s` in front of a prefix of `s[1..]`. */
  lemma ConsPrefix(s: string, p: string)
    requires |s| >= 1 && p <= s[1..]
    ensures [s[0]] + p <= s
    ensures [s[0]] + p == s <==> p == s[1..]
  {
    assert s == [s[0]] + s[1..];
  }

  /** After the first part of a text that does not start with a break comes
      the same break, and the same split, as in the rest of the text. */
  lemma LeftmostConsTail(s: string, rest: seq<string>)
    requires |s| >= 2
    requires rest == SplitParagraphs(s[1..]) && Leftmost(s[1..], rest)
    ensures |rest| > 1 ==> (OccursAt(s, ParagraphBreak, |rest[0]| + 1)
      && rest[1..] == SplitParagraphs(s[|rest[0]| + 3..]))
  {
    if |rest| > 1 {
      TailSlices(s, |rest[0]|);
    }
  }

  /** Slices of `s[1..]` are the slices of `s` one position further on. */
  lemma TailSlices(s: string, k: nat)
    requires 1 <= k + 3 <= |s|
    ensures s[1..][k..k + 2] == s[k + 1..k + 3]
    ensures s[1..][k + 2..] == s[k + 3..]
  {
  }

  /** No break starts inside a first part that ends at the first break of the rest. */
  lemma LeftmostConsNoBreak(s: string, p: string)
    requires |s| >= 2 && s[..2] != ParagraphBreak
    requires forall i :: 0 <= i < |p| ==> !OccursAt(s[1..], ParagraphBreak, i)
    ensures forall i :: 0 <= i < |p| + 1 ==> !OccursAt(s, ParagraphBreak, i)
  {
    forall i | 0 <= i < |p| + 1
      ensures !OccursAt(s, ParagraphBreak, i)
    {
      if i > 0 && i <= |s| - 2 {
        assert s[i..i + 2] == s[1..][i - 1..i + 1];
        assert !OccursAt(s[1..], ParagraphBreak, i - 1);
      }
    }
  }

  /** Putting a character in front of a part keeps it free of breaks unless
      the two form one. */
  lemma ConsNoBreak(c: char, p: string)
    requires !Contains(p, ParagraphBreak)
    requires p == [] || c != '\n' || p[0] != '\n'
    ensures !Contains([c] + p, ParagraphBreak)
  {
    var h := [c] + p;
    forall i | 0 <= i <= |h| - 2
      ensures !OccursAt(h, ParagraphBreak, i)
    {
      if i == 0 {
        assert h[..2] == [c, p[0]];
      } else {
        assert h[i..i + 2] == p[i - 1..i + 1];
        assert !OccursAt(p, ParagraphBreak, i - 1);
      }
    }
  }

  /** The first part is where the joined text starts. */
  lemma FirstPartIsPrefix(parts: seq<string>)
    requires |parts| >= 1
    ensures parts[0] <= JoinParagraphs(parts)
  {
  }

  /** Joining a concatenation of two non-empty part lists puts one break between them. */
  lemma {:induction false} JoinParagraphsAppend(a: seq<string>, b: seq<string>)
    requires |a| >= 1 && |b| >= 1
    ensures JoinParagraphs(a + b) == JoinParagraphs(a) + ParagraphBreak + JoinParagraphs(b)
    decreases |a|
  {
    if |a| == 1 {
      assert (a + b)[1..] == b;
    } else {
      JoinParagraphsAppend(a[1..], b);
      assert (a + b)[1..] == a[1..] + b;
    }
  }

  // ---------------------------------------------------------------------------
  // Words: str.split() without an argument
  // ---------------------------------------------------------------------------

  predicate NoSpace(w: string) {
    forall i :: 0 <= i < |w| ==> !IsSpace(w[i])
  }

  /** The length of the run of non-space characters `s` starts with. */
  function WordLength(s: string): (n: nat)
    ensures n <= |s|
    ensures NoSpace(s[..n])
    ensures n == |s| || IsSpace(s[n])
  {
    if s == [] || IsSpace(s[0]) then 0 else 1 + WordLength(s[1..])
  }

  /** `s.split()`: the maximal runs of non-space characters, left to right. */
  function Words(s: string): (ws: seq<string>)
    ensures forall k :: 0 <= k < |ws| ==> ws[k] != [] && NoSpace(ws[k])
    decreases |s|
  {
    if s == [] then []
    else if IsSpace(s[0]) then Words(s[1..])
    else
      var n := WordLength(s);
      [s[..n]] + Words(s[n..])
  }

  /** `' '.join(ws)`. */
  function JoinWords(ws: seq<string>): string {
    if |ws| == 0 then ""
    else if |ws| == 1 then ws[0]
    else ws[0] + " " + JoinWords(ws[1..])
  }

  /** The set `set(s.split())`. */
  function WordSet(s: string): set<string> {
    set k | 0 <= k < |Words(s)| :: Words(s)[k]
  }

  lemma {:induction false} WordLengthOfWord(w: string, t: string)
    requires NoSpace(w)
    requires t == [] || IsSpace(t[0])
    ensures WordLength(w + t) == |w|
    decreases |w|
  {
    if w == [] {
      assert w + t == t;
    } else {
      WordLengthOfWord(w[1..], t);
      assert (w + t)[1..] == w[1..] + t;
    }
  }

  /** Splitting words that were joined by single spaces gives them back. */
  lemma {:induction false} WordsOfJoinWords(ws: seq<string>)
    requires forall k :: 0 <= k < |ws| ==> ws[k] != [] && NoSpace(ws[k])
    ensures Words(JoinWords(ws)) == ws
    decreases |ws|
  {
    if |ws| == 0 {
    } else if |ws| == 1 {
      var w := ws[0];
      WordLengthOfWord(w, []);
      assert w + [] == w;
      assert w[|w|..] == [];
    } else {
      var w := ws[0];
      var tail := " " + JoinWords(ws[1..]);
      var s := w + tail;
      assert JoinWords(ws) == s;
      WordLengthOfWord(w, tail);
      assert s[..|w|] == w;
      assert s[|w|..] == tail;
      assert tail[1..] == JoinWords(ws[1..]);
      WordsOfJoinWords(ws[1..]);
      assert Words(tail) == Words(JoinWords(ws[1..]));
    }
  }

  /** A text without whitespace is one word, or none when it is empty. */
  lemma WordsOfWord(w: string)
    requires NoSpace(w)
    ensures Words(w) == if w == [] then [] else [w]
  {
    if w != [] {
      WordsOfJoinWords([w]);
    }
  }

  /** Every whitespace character separates words: the words of a text are
      the words before it followed by the words after it. With `WordsOfWord`
      this fixes `str.split()` on every string. */
  lemma {:induction false} WordsSplitAtSpace(a: string, c: char, b: string)
    requires IsSpace(c)
    ensures Words(a + [c] + b) == Words(a) + Words(b)
    decreases |a|
  {
    if a == [] {
      assert a + [c] + b == [c] + b;
      assert ([c] + b)[1..] == b;
    } else if IsSpace(a[0]) {
      WordsSplitAtSpace(a[1..], c, b);
      assert (a + [c] + b)[1..] == a[1..] + [c] + b;
    } else {
      var w, r := a[..WordLength(a)], a[WordLength(a)..];
      assert a == w + r;
      assert a + [c] + b == w + (r + [c] + b);
      WordsSplitAtSpace(r, c, b);
      WordsAfterWord(w, r);
      WordsAfterWord(w, r + [c] + b);
    }
  }

  /** A word followed by whitespace or by nothing comes first among the words. */
  lemma WordsAfterWord(w: string, t: string)
    requires w != [] && NoSpace(w)
    requires t == [] || IsSpace(t[0])
    ensures Words(w + t) == [w] + Words(t)
  {
    var s := w + t;
    WordLengthOfWord(w, t);
    assert s[..|w|] == w && s[|w|..] == t;
  }
}

=== FILE: validation.dfy ===
/** The part of `_generate_questions` that runs after the chat completion
    returned: keep the records of the parsed JSON array that carry the four
    required keys, and number them from `startId`.
 */
module Validation {
  import opened Common
  import opened Questions

  /** One element of the array `json.loads` produced. Present keys are taken
      to hold values of the expected kind. */
  datatype ParsedItem =
    | NotAnObject
    | Object(
        question: Option<string>,
        options: Option<OptionList>,
        correctAnswer: Option<string>,
        explanation: Option<string>,
        topic: Option<string>)

  /** What the model call and `json.loads` delivered. */
  datatype Reply =
    | CallFailed                     // the completion request raised
    | Unparseable                    // json.loads raised
    | NotAList                       // parsed, but not a JSON array ("Invalid question format")
    | Items(items: seq<ParsedItem>)

  /** A dict with 'question', 'options', 'correct_answer' and 'explanation'. */
  predicate IsComplete(item: ParsedItem) {
    && item.Object?
    && item.question.Some?
    && item.options.Some?
    && item.correctAnswer.Some?
    && item.explanation.Some?
  }

  function ToQuestion(item: ParsedItem, id: int): Question
    requires IsComplete(item)
  {
    Question(id, item.question.value, item.options.value, item.correctAnswer.value,
             item.explanation.value, item.topic)
  }

  /** The loop of lines 156-162: complete records are kept and get the id
      `start_id + len(valid_questions)`. */
  function ValidQuestions(items: seq<ParsedItem>, startId: int): (qs: seq<Question>)
    ensures |qs| <= |items|
    ensures forall i :: 0 <= i < |qs| ==> qs[i].id == startId + i
  {
    if items == [] then []
    else if IsComplete(items[0]) then [ToQuestion(items[0], startId)] + ValidQuestions(items[1..], startId + 1)
    else ValidQuestions(items[1..], startId)
  }

  /** The complete records, in input order. */
  function Complete(items: seq<ParsedItem>): (kept: seq<ParsedItem>)
    ensures forall x :: x in kept <==> x in items && IsComplete(x)
  {
    if items == [] then []
    else if IsComplete(items[0]) then [items[0]] + Complete(items[1..])
    else Complete(items[1..])
  }

  /** Complete records turned into questions numbered `startId, startId + 1, ...`. */
  function Numbered(items: seq<ParsedItem>, startId: int): seq<Question>
    requires forall i :: 0 <= i < |items| ==> IsComplete(items[i])
  {
    seq(|items|, i requires 0 <= i < |items| => ToQuestion(items[i], startId + i))
  }

  /** The validation loop is exactly "filter the complete records, then number
      them consecutively". */
  lemma {:induction false} ValidQuestionsIsFilterThenNumber(items: seq<ParsedItem>, startId: int)
    ensures ValidQuestions(items, startId) == Numbered(Complete(items), startId)
    decreases |items|
  {
    if items == [] {
    } else if IsComplete(items[0]) {
      ValidQuestionsIsFilterThenNumber(items[1..], startId + 1);
      var rest := Complete(items[1..]);
      assert Complete(items) == [items[0]] + rest;
      assert Numbered([items[0]] + rest, startId)
          == [ToQuestion(items[0], startId)] + Numbered(rest, startId + 1);
    } else {
      ValidQuestionsIsFilterThenNumber(items[1..], startId);
    }
  }

  /** What `_generate_questions` returns for a reply: every failure yields the
      empty list, a parsed array yields its valid questions. */
  function QuestionsFromReply(reply: Reply, startId: int): (qs: seq<Question>)
    ensures !reply.Items? ==> qs == []
    ensures reply.Items? ==> qs == Numbered(Complete(reply.items), startId)
  {
    match reply
    case Items(items) =>
      ValidQuestionsIsFilterThenNumber(items, startId);
      ValidQuestions(items, startId)
    case _ => []
  }
}
